=== FILE: README.md ===
# BITS Research Connect — a Dafny model of the marketplace rules

BITS Research Connect is a web app where professors publish research positions and students apply for them. This project models the rules the app runs in memory, and proves properties about them:

- **The store** (`mockDataService`). It holds four tables (students, professors, positions, applications) and the id of the logged-in user. It is modelled as the class `MockData.MockDataService`: the tables are `seq` fields that its methods reassign. The pure queries are functions that read the object.
- **The positions provider** (`PositionsProvider`). It keeps a snapshot of the store. It checks role and ownership before every change. It applies the one-application-per-position rule and the minimum-CGPA gate. It is modelled as the class `PositionsContext.PositionsProvider`.
- **The session provider** (`AuthProvider`). It holds the user/error pair that login, register, logout and profile updates move between. It is modelled as the class `AuthContext.AuthProvider`.
- **The page rules**:
  - the form validators: WhatsApp `^\d{10}$`, CGPA in [0, 10], required fields, the campus e-mail suffix, the Google Drive resume prefix;
  - the split/join of research interests;
  - the payload each form sends;
  - the position search filters, the status counts and the button conditions of the two dashboards.

  These are functions and lemmas, one module per page. The page rules that change page state become small classes: the edit page's load effect and the student dashboard's apply dialog.

A thrown error becomes a `Failure`/`Fail` value carrying an error datatype. `parseFloat`, `parseInt` and number-to-text conversions are function parameters. CGPA is a `real`, since the code only compares it. `toLowerCase` is an ASCII case fold.

Where the type declarations and the code disagree, the model follows the code:
- `researchInterests` is declared a `string` but is stored and used as a list, so it is an `Option<seq<string>>`.
- `credits` is declared a number, but `parseInt` of non-numeric text yields NaN, so it is an `Option<int>` with `None` for NaN.

Three hazards of the code are proved as lemmas rather than hidden:
- `createPosition` names the next position `pos{n+1}`, so after a delete an id is handed out again (`MockData.IdReusedAfterDelete`).
- Once two professors' positions share an id, the owner's delete or update also removes or patches the other professor's row (`MockData.SharedIdReachesOtherOwner`).
- Deleting a position leaves its applications in the store. The student's applications tab silently skips them (`StudentDashboardPage.DeletedPositionHidesApplications`).

## Model

| member | source | states |
|---|---|---|
| Types.User.Role | src/lib/types.ts:1-28 | a user is a student or a professor, and the role says which |
| Types.DesignationNameInjective | src/lib/types.ts:24 | the five designation titles are distinct, each naming one designation |
| Types.MergePosition | src/lib/mock-data.ts:396-399 | a position patch never changes id, professor or department; an empty patch changes nothing |
| MockData.NewUser | src/lib/mock-data.ts:280-326 | register's user: a non-campus or missing e-mail fails with the e-mail error, then a missing role fails with the role error; on success the user has the given id, the requested role and the given e-mail; absent name, id number and WhatsApp become "", an absent CGPA 0, an absent designation Assistant Professor, absent department and chamber ""; present fields are kept |
| MockData.MockDataService.constructor | src/lib/mock-data.ts:245-249 | the tables start as the seed data, nobody is logged in, and user ids are unique |
| MockData.SeedIdsUnique | src/lib/mock-data.ts:4-84 | the seed users have non-empty ids, and no two users share one |
| MockData.MockDataService.CurrentStudent | src/lib/mock-data.ts:334-345 | with unique ids, a session holding a student's id resolves to that student |
| MockData.MockDataService.CurrentProfessor | src/lib/mock-data.ts:334-345 | with unique ids, a session holding a professor's id resolves to that professor |
| MockData.MockDataService.FindByEmail | src/lib/mock-data.ts:265-275 | the user an e-mail belongs to: the first student with it if any, else the first professor with it; none exactly when nobody has it |
| MockData.MockDataService.Login | src/lib/mock-data.ts:259-278 | a bad suffix fails and leaves the session alone; otherwise the first student, then the first professor, with the e-mail becomes the session user; no match fails with invalid credentials; the password is not consulted |
| MockData.MockDataService.Register | src/lib/mock-data.ts:280-326 | the result is `NewUser`; a failure changes nothing; a success appends exactly one user to its role's table and logs it in; a fresh id keeps ids unique |
| MockData.MockDataService.Logout | src/lib/mock-data.ts:329-332 | after logout there is no current user |
| MockData.MockDataService.GetCurrentUser | src/lib/mock-data.ts:334-345 | no session gives nobody; otherwise the student, else the professor, whose id is the session's, or nobody |
| MockData.MockDataService.UpdateStudentProfile | src/lib/mock-data.ts:347-355 | merges the patch into the first student with the id and changes no other row; an unknown id fails and changes nothing |
| MockData.MockDataService.UpdateProfessorProfile | src/lib/mock-data.ts:357-365 | the same for professors |
| MockData.MockDataService.GetPositions | src/lib/mock-data.ts:368-379 | a logged-in professor gets exactly their positions, any status; anybody else gets exactly the open ones; order and every copy of a row are kept |
| MockData.MockDataService.GetPosition | src/lib/mock-data.ts:381-383 | the first position with the id, or none exactly when no position has it |
| MockData.MockDataService.CreatePosition | src/lib/mock-data.ts:385-394 | appends exactly one position, named `pos{n+1}`; existing rows are untouched and duplicates are not checked |
| MockData.UpdatedPositions | src/lib/mock-data.ts:396-399 | same length; every row with the id is merged, every other row is unchanged |
| MockData.MockDataService.UpdatePosition | src/lib/mock-data.ts:396-399 | the table becomes `UpdatedPositions`; the result is the first position with the id |
| MockData.RemovePosition | src/lib/mock-data.ts:401-404 | no row with the id is left; every other row is kept, in order, with every copy |
| MockData.MockDataService.DeletePosition | src/lib/mock-data.ts:401-404 | the positions become `RemovePosition`; applications are untouched |
| MockData.MockDataService.GetApplications | src/lib/mock-data.ts:407-419 | the applications matching each non-empty filter, in order, every copy kept |
| MockData.MockDataService.CreateApplication | src/lib/mock-data.ts:421-431 | appends exactly one application, `pending`, named `app{n+1}`; no duplicate check |
| MockData.UpdatedApplications | src/lib/mock-data.ts:433-436 | same length; every application with the id gets the new status, the others are unchanged |
| MockData.MockDataService.UpdateApplication | src/lib/mock-data.ts:433-436 | the table becomes `UpdatedApplications`; the result is the first application with the id, none exactly when there is none |
| MockData.MockDataService.GetPositionsByProfessor | src/lib/mock-data.ts:439-441 | exactly the professor's positions, in order, every copy kept |
| MockData.MockDataService.ProfessorListingIsOwnPositions | src/lib/mock-data.ts:368-372 | for a logged-in professor the listing equals the by-professor listing |
| MockData.MockDataService.GetApplicationsForPosition | src/lib/mock-data.ts:443-445 | exactly the position's applications, in order, every copy kept |
| MockData.MockDataService.GetAppliedPositions | src/lib/mock-data.ts:447-452 | exactly the positions the student has an application for, in order, every copy kept |
| MockData.MockDataService.HasApplied | src/lib/mock-data.ts:454-456 | true iff some application has that student and position |
| MockData.PositionIdInjective | src/lib/mock-data.ts:386 | different counts give different `pos{n}` ids |
| MockData.NewPositionIdFresh | src/lib/mock-data.ts:385-394 | while ids are sequential (nothing deleted) the new id is fresh |
| MockData.AppendKeepsSequentialIds | src/lib/mock-data.ts:385-394 | creating a position keeps ids sequential |
| MockData.SeedPositionsSequential | src/lib/mock-data.ts:86-181 | the seed positions are `pos1` to `pos5` in order |
| MockData.IdReusedAfterDelete | src/lib/mock-data.ts:386-402 | after a delete, the next created position reuses an existing id |
| MockData.SharedIdReachesOtherOwner | src/lib/mock-data.ts:396-404 | once two professors' positions share an id, a delete of it removes both rows and an update patches both |
| PositionsContext.PositionsProvider.constructor | src/contexts/PositionsContext.tsx:26-51 | mounting reads the store's positions and applications |
| PositionsContext.PositionsProvider.Refresh | src/contexts/PositionsContext.tsx:33-47 | the snapshot becomes the store's visible positions and all applications |
| PositionsContext.PositionsProvider.SetUser | src/contexts/PositionsContext.tsx:49-51 | a new user re-reads the snapshot |
| PositionsContext.PositionsProvider.GetPositionById | src/contexts/PositionsContext.tsx:53-55 | the first snapshot position with the id, or none exactly when none has it |
| PositionsContext.Stamped | src/contexts/PositionsContext.tsx:66-74 | the created position carries the professor's id, name and department and the status `open` |
| PositionsContext.PositionsProvider.CreatePosition | src/contexts/PositionsContext.tsx:57-87 | professor-only, changing nothing otherwise; exactly one stamped position is appended |
| PositionsContext.PositionsProvider.UpdatePosition | src/contexts/PositionsContext.tsx:89-116 | refused, changing nothing, unless a professor owns the position; the owner's call merges the patch, returns the store's first row with the id after the merge, and always re-reads the store; on a synced snapshot it finds the position |
| PositionsContext.PositionsProvider.DeletePosition | src/contexts/PositionsContext.tsx:118-141 | refused, changing nothing, unless a professor owns the position; the owner's call removes it and keeps its applications |
| PositionsContext.PositionsProvider.GetApplicationsForPosition | src/contexts/PositionsContext.tsx:143-154 | none unless the caller owns the position; otherwise exactly its applications, in order, every copy kept |
| PositionsContext.PositionsProvider.HasApplied | src/contexts/PositionsContext.tsx:156-162 | true iff the caller is a student with an application for the position |
| PositionsContext.PositionsProvider.CreateApplication | src/contexts/PositionsContext.tsx:164-209 | in order: students only, no earlier application, an existing position, `minimumCGPA > cgpa` rejects; accepted iff all pass, with equal CGPA accepted; a refusal leaves the store and the snapshot as they were; one pending application built from the profile and pitch is appended; on a synced snapshot one application per (student, position) is kept |
| PositionsContext.AppendKeepsOneApplicationPerPair | src/contexts/PositionsContext.tsx:173-175 | appending for a new (student, position) pair keeps at most one application per pair |
| PositionsContext.SeedHasOneApplicationPerPair | src/lib/mock-data.ts:183-243 | the seed applications have one per pair |
| PositionsContext.SnapshotPositionsOpenForNonProfessors | src/contexts/PositionsContext.tsx:33-41 | outside a professor's session, every position found by id is open |
| PositionsContext.PositionsProvider.UpdateApplicationStatus | src/contexts/PositionsContext.tsx:211-240 | refused, changing nothing, unless a professor owns the application's position: not a professor, no such application, or not the owner, each with its own error; any of the three statuses may be set; one application per (student, position) is kept |
| PositionsContext.PositionsProvider.MyPositions | src/contexts/PositionsContext.tsx:242-244 | a professor's own snapshot positions, in order, every copy kept; none for a student |
| PositionsContext.PositionsProvider.MyApplications | src/contexts/PositionsContext.tsx:246-248 | a student's own snapshot applications, in order, every copy kept; none for a professor |
| AuthContext.AuthProvider.constructor | src/contexts/AuthContext.tsx:23-38 | on mount the user is the store's current user |
| AuthContext.AuthProvider.Login | src/contexts/AuthContext.tsx:40-56 | success makes the found user the user and clears the error; failure records the error and keeps the user; user and store stay in step |
| AuthContext.AuthProvider.Register | src/contexts/AuthContext.tsx:58-74 | the same pattern for the registered user; a fresh id keeps user and store in step |
| AuthContext.AuthProvider.Logout | src/contexts/AuthContext.tsx:76-79 | user and store session are both cleared |
| AuthContext.AuthProvider.UpdateProfile | src/contexts/AuthContext.tsx:81-107 | with no user: "No user logged in" and nothing changes; otherwise the student or professor table by role is merged and the user is replaced by the merged row |
| Validation.WhatsAppNumberIff | src/pages/StudentProfile.tsx:60 | a valid WhatsApp number is exactly ten ASCII digits |
| Validation.ParseCgpa | src/pages/StudentProfile.tsx:70-78 | a CGPA is accepted iff it parses to a number in [0, 10], both bounds included |
| Validation.DriveLinkIsNotBlank | src/pages/StudentDashboard.tsx:82-89 | a link that passes the Drive check is never blank |
| Validation.CheckStudentFields | src/pages/StudentProfile.tsx:60-78 | WhatsApp first, then CGPA; accepted iff both hold |
| Validation.CheckProfessorFields | src/pages/ProfessorProfile.tsx:92-117 | WhatsApp, then designation, then department; accepted iff all hold |
| Text.EndsWithIff | src/lib/mock-data.ts:260 | `endsWith` holds exactly when the string is some text followed by the suffix |
| Text.JoinSplit | src/pages/ProfessorProfile.tsx:74-134 | joining the pieces of a comma split with the comma gives the text back |
| Validation.SplitInterests | src/pages/ProfessorProfile.tsx:131-138 | "" gives no interests; otherwise item i is the i-th comma-separated piece with its surrounding white space cut off |
| Validation.SplitJoinInterests | src/pages/ProfessorProfile.tsx:74-134 | joining with ", " and splitting back returns the list when items have no comma or surrounding blanks |
| Validation.EmptyInterestIsDropped | src/pages/ProfessorProfile.tsx:74-138 | a single empty interest does not survive a round trip |
| StudentProfilePage.Submit | src/pages/StudentProfile.tsx:56-86 | WhatsApp, then CGPA; the payload has every form field, the CGPA as a number |
| StudentProfilePage.SaveUnchangedProfile | src/pages/StudentProfile.tsx:37-86 | saving the prefilled form unedited changes only missing optional fields into "" |
| StudentProfilePage.DisabledFieldsKept | src/pages/StudentProfile.tsx:132-153 | the disabled id-number and e-mail fields are resent unchanged |
| StudentProfileSetupPage.Submit | src/pages/StudentProfileSetup.tsx:50-80 | WhatsApp, then CGPA; the payload is branch, dual, minor, WhatsApp and numeric CGPA |
| StudentProfileSetupPage.SetupKeepsIdentity | src/pages/StudentProfileSetup.tsx:77-80 | setup never changes name, id number or e-mail |
| StudentProfileSetupPage.SaveUnchangedSetup | src/pages/StudentProfileSetup.tsx:34-80 | the unedited prefill round-trips, missing fields becoming "" |
| ProfessorProfilePage.Submit | src/pages/ProfessorProfile.tsx:88-140 | WhatsApp, designation, department in order; the payload never has id number or e-mail |
| ProfessorProfilePage.SaveKeepsIdentity | src/pages/ProfessorProfile.tsx:123-138 | a save keeps id, id number and e-mail; stored interests are trimmed and comma-free |
| ProfessorProfilePage.SaveUnchangedProfile | src/pages/ProfessorProfile.tsx:63-138 | the unedited prefill round-trips under the interest condition |
| ProfessorProfileSetupPage.Submit | src/pages/ProfessorProfileSetup.tsx:82-133 | the same checks; the payload is designation, department, chamber, WhatsApp and interests |
| ProfessorProfileSetupPage.SetupTouchesOnlySetupFields | src/pages/ProfessorProfileSetup.tsx:117-131 | an accepted setup changes only those five fields |
| ProfessorProfileSetupPage.SaveUnchangedSetup | src/pages/ProfessorProfileSetup.tsx:60-131 | the unedited prefill round-trips under the interest condition |
| RegisterPage.Submit | src/pages/Register.tsx:26-61 | e-mail suffix, then password match; the data holds the form fields, the role and an empty WhatsApp number |
| RegisterPage.AcceptedFormRegisters | src/pages/Register.tsx:19-61 | data the page accepts always passes the store's checks and yields a user of the chosen role |
| RegisterPage.RedirectTarget | src/pages/Register.tsx:71-73 | students go to the student setup page, professors to the professor setup page |
| CreatePositionPage.CheckPositionForm | src/pages/CreatePosition.tsx:62-81 | the six required fields, then the CGPA in [0, 10]; at most one refusal |
| CreatePositionPage.OptionalFieldsNeverBlock | src/pages/CreatePosition.tsx:62-70 | prerequisites and specific requirements never affect acceptance |
| CreatePositionPage.Submit | src/pages/CreatePosition.tsx:58-90 | the draft has credits and CGPA parsed and the other fields copied |
| EditPositionPage.Prefill | src/pages/EditPosition.tsx:70-80 | the form copies the position, missing optional fields as "", and the status |
| EditPositionPage.EditPositionPage.constructor | src/pages/EditPosition.tsx:30-43 | the form starts empty with status `open` and no error |
| EditPositionPage.EditPositionPage.Load | src/pages/EditPosition.tsx:45-81 | an unknown id sets "not found", another professor's position sets the permission error, and neither fills the form; the owner's position fills it |
| EditPositionPage.Submit | src/pages/EditPosition.tsx:93-135 | the creation checks in the same order, then a missing position id refuses; the patch has every field, credits and CGPA parsed, and the status |
| EditPositionPage.EditChecksMatchCreation | src/pages/EditPosition.tsx:97-116 | edit and create accept the same forms |
| EditPositionPage.SaveUnchangedPosition | src/pages/EditPosition.tsx:70-135 | saving the loaded form unedited writes the position back, missing optional fields as "" |
| EditPositionPage.DeleteRequest | src/pages/EditPosition.tsx:155-160 | delete proceeds iff there is a position id and the user confirmed |
| PositionFilters.Departments | src/pages/StudentDashboard.tsx:62 | every position's department, each once, and nothing else, in order of first appearance |
| PositionFilters.EmptyQueryMatches | src/pages/StudentDashboard.tsx:66-68 | the empty query matches every field |
| PositionFilters.QueryCaseInsensitive | src/pages/StudentDashboard.tsx:66-68 | the query's case does not matter |
| StudentDashboardPage.FilteredPositions | src/pages/StudentDashboard.tsx:65-71 | the order-kept positions, every copy kept, whose department matches (`all` matches any) and whose area, professor or course contains the query |
| StudentDashboardPage.NoFiltersListEverything | src/pages/StudentDashboard.tsx:65-71 | `all` with an empty query lists every position |
| StudentDashboardPage.SearchIgnoresCase | src/pages/StudentDashboard.tsx:65-71 | lower-casing the query does not change the listing |
| StudentDashboardPage.DriveLinkEnablesSubmit | src/pages/StudentDashboard.tsx:377 | with a pitch, a Drive link and no submit running, Submit is enabled |
| StudentDashboardPage.GetApplicationStatus | src/pages/StudentDashboard.tsx:116-119 | the status of the first own application for the position, or none iff there is none |
| StudentDashboardPage.StatusShownIffApplied | src/pages/StudentDashboard.tsx:116-119 | a status is shown iff the provider says the student applied |
| StudentDashboardPage.AppliedRows | src/pages/StudentDashboard.tsx:409-411 | one row per application that has a position, in the applications' order, paired with the first position of its id; applications without one are skipped |
| StudentDashboardPage.DeletedPositionHidesApplications | src/pages/StudentDashboard.tsx:410-411 | applications of a deleted position are not shown |
| StudentDashboardPage.StudentDashboard.constructor | src/pages/StudentDashboard.tsx:36-40 | the dialog starts empty |
| StudentDashboardPage.StudentDashboard.HandleApply | src/pages/StudentDashboard.tsx:74-113 | nothing without a selection; a non-Drive link is refused before the provider; otherwise accepted iff not applied, the position exists and the student is CGPA-eligible, and a success clears the dialog |
| BrowsePositionsPage.FilteredPositions | src/pages/BrowsePositions.tsx:19-26 | the order-kept open positions, every copy kept, matching department and a search that also covers a non-empty summary |
| BrowsePositionsPage.ClearedFiltersListOpenPositions | src/pages/BrowsePositions.tsx:106-109 | after Clear Filters exactly the open positions are listed |
| BrowsePositionsPage.BrowseListsOpenDashboardPositions | src/pages/BrowsePositions.tsx:19-26 | every open position the dashboard search lists is listed here too |
| BrowsePositionsPage.ResultCountText | src/pages/BrowsePositions.tsx:95 | the count text ends in "s" iff the count is not 1 |
| StatusBadge.StatusColor | src/pages/ProfessorDashboard.tsx:86-93 | the three statuses have a class; anything else gets "" |
| StatusBadge.StatusColorsDistinct | src/pages/ProfessorDashboard.tsx:86-93 | different statuses get different classes |
| ProfessorDashboardPage.StatusCountsPartition | src/pages/ProfessorDashboard.tsx:96-104 | pending + shortlisted + rejected equals the total |
| ProfessorDashboardPage.Counts | src/pages/ProfessorDashboard.tsx:96-104 | total is the number of applications, each other count that of its status |
| ProfessorDashboardPage.GetApplicationCounts | src/pages/ProfessorDashboard.tsx:63-104 | all zero for a position the caller does not own; otherwise `Counts` of its applications: the total and the pending, shortlisted and rejected counts |
| ProfessorDashboardPage.SomeActionEnabled | src/pages/ProfessorDashboard.tsx:284-293 | Shortlist and Reject are never both disabled; both are enabled iff the application is pending |

## Left out

- Rendering, toasts, navigation, redirect effects, routing (src/App.tsx) and the purely presentational components: not logic.
- The remote database layer (src/integrations/supabase/types.ts, src/components/SupabaseDebugger.tsx): external I/O.
- src/pages/Login.tsx: its only rule, the e-mail suffix, is the store's login check, which is modelled.
- `loading` and `isSubmitting`/`isDeleting` flags, and reading `error` right after an `await`: these depend on React's scheduling. The apply dialog keeps `isSubmitting` only as the value it ends with.
- `createdAt` dates and their formatting: clock and locale.
- The random id of `register`: it is the parameter `id`.
- MockData.MockDataService.Register: UniqueIds is kept only when that id is fresh, since the source draws it at random and never checks it.
- `parseFloat`, `parseInt` and number formatting: they are function parameters, not models of JavaScript's number parsing. Floating-point CGPA is modelled as `real`.
- `toLowerCase` and `trim`:
  - the case fold is ASCII-only;
  - the set of blanks follows JavaScript's white-space and line-terminator list;
  - no Unicode case mapping.
- Patches carry only the keys the pages send. A caller-supplied `id`, `role`, `professorId` or `createdAt` in a patch is not modelled.
- The extra `resumeLink` argument the dashboard passes to `createApplication`: the provider ignores it.
- The provider's `catch` branches for failures of the store call itself: the store's create and update calls cannot fail in the model.
- EditPositionPage.EditPositionPage.Load: the user is a parameter rather than read from the session provider.
- StatusBadge.StatusColor: the student dashboard's copy of the same switch is the same function.

=== FILE: auth_context.dfy ===
/** The authentication provider: the session user and the last error,
    moved by login, register, logout and profile updates, each of which
    delegates to the store. */
module AuthContext {
  import opened Wrappers
  import opened Seqs
  import opened Text
  import opened Types
  import opened MockData

  /** The errors the provider records: a store refusal, or an update without a session. */
  datatype AuthError = ServiceError(cause: StoreError) | NoUserLoggedIn

  function AuthMessage(e: AuthError): string {
    match e
    case ServiceError(cause) => Message(cause)
    case NoUserLoggedIn => "No user logged in"
  }

  class AuthProvider {
    const store: MockDataService
    var user: Option<User>
    var error: Option<AuthError>

    /** The provider's user is the store's session user, over tables with unique ids. */
    ghost predicate Consistent()
      reads this, store
    {
      store.UniqueIds() && user == store.GetCurrentUser()
    }

    /** The mount-time check adopts whatever session the store already has. */
    constructor(store: MockDataService)
      ensures this.store == store && error == None
      ensures user == store.GetCurrentUser()
      ensures store.UniqueIds() ==> Consistent()
    {
      this.store := store;
      user := store.GetCurrentUser();
      error := None;
    }

    /** A successful login makes the looked-up user the session user and
        clears the error; a refused one records the store's error and keeps
        the user. */
    method Login(email: string, password: string)
      modifies this`user, this`error, store`currentUser
      ensures !EndsWith(email, CampusDomain) ==>
        error == Some(ServiceError(EmailNotAllowed)) && user == old(user) && store.currentUser == old(store.currentUser)
      ensures EndsWith(email, CampusDomain) && store.FindByEmail(email).Some? ==>
        user == store.FindByEmail(email) && error == None
      ensures EndsWith(email, CampusDomain) && store.FindByEmail(email).None? ==>
        error == Some(ServiceError(InvalidCredentials)) && user == old(user) &&
        store.currentUser == old(store.currentUser)
      ensures old(Consistent()) ==> Consistent()
    {
      error := None;
      var response := store.Login(email, password);
      if response.Success? {
        user := Some(response.value);
      } else {
        error := Some(ServiceError(response.error));
      }
    }

    /** Registration follows the same pattern as login; the password is not
        passed on, and `id` stands for the store's random id. */
    method Register(data: RegisterData, password: string, id: string)
      modifies this`user, this`error, store`students, store`professors, store`currentUser
      ensures NewUser(data, id).Success? ==>
        user == Some(NewUser(data, id).value) && error == None && store.currentUser == Some(id)
      ensures NewUser(data, id).Failure? ==>
        && error == Some(ServiceError(NewUser(data, id).error)) && user == old(user)
        && store.students == old(store.students) && store.professors == old(store.professors)
        && store.currentUser == old(store.currentUser)
      ensures old(Consistent()) && (NewUser(data, id).Failure? || old(store.IsFreshId(id))) ==> Consistent()
    {
      error := None;
      var response := store.Register(data, id);
      if response.Success? {
        user := Some(response.value);
      } else {
        error := Some(ServiceError(response.error));
      }
    }

    /** Logout ends the store's session and forgets the user; the error is kept. */
    method Logout()
      modifies this`user, store`currentUser
      ensures user == None && store.currentUser == None
      ensures store.UniqueIds() ==> Consistent()
    {
      store.Logout();
      user := None;
    }

    /** Without a user the update records `NoUserLoggedIn` and touches
        nothing; otherwise the patch goes to the student or the professor
        table by the user's role, and a found row replaces the user. */
    method UpdateProfile(patch: ProfilePatch)
      modifies this`user, this`error, store`students, store`professors
      ensures old(user).None? ==>
        error == Some(NoUserLoggedIn) && user == None &&
        store.students == old(store.students) && store.professors == old(store.professors)
      ensures old(user).Some? ==> error == None
      ensures old(user).Some? && old(user).value.StudentUser? ==>
        && store.professors == old(store.professors)
        && var id := old(user).value.Id();
           match FindIndex(old(store.students), (s: StudentProfile) => s.id == id)
           case None => user == old(user) && store.students == old(store.students)
           case Some(i) =>
             store.students == old(store.students)[i := MergeStudent(old(store.students)[i], patch)] &&
             user == Some(StudentUser(store.students[i]))
      ensures old(user).Some? && old(user).value.ProfessorUser? ==>
        && store.students == old(store.students)
        && var id := old(user).value.Id();
           match FindIndex(old(store.professors), (p: ProfessorProfile) => p.id == id)
           case None => user == old(user) && store.professors == old(store.professors)
           case Some(j) =>
             store.professors == old(store.professors)[j := MergeProfessor(old(store.professors)[j], patch)] &&
             user == Some(ProfessorUser(store.professors[j]))
      ensures old(Consistent()) ==> Consistent()
    {
      if user.None? {
        error := Some(NoUserLoggedIn);
        return;
      }
      error := None;
      var u := user.value;
      if u.StudentUser? {
        var response := store.UpdateStudentProfile(u.Id(), patch);
        if response.Success? {
          user := Some(StudentUser(response.value));
          if old(Consistent()) {
            var i := FindIndex(old(store.students), (s: StudentProfile) => s.id == u.Id());
            store.CurrentStudent(i.value);
          }
        }
      } else {
        var response := store.UpdateProfessorProfile(u.Id(), patch);
        if response.Success? {
          user := Some(ProfessorUser(response.value));
          if old(Consistent()) {
            var j := FindIndex(old(store.professors), (p: ProfessorProfile) => p.id == u.Id());
            store.CurrentProfessor(j.value);
          }
        }
      }
    }
  }
}

=== FILE: browse_positions.dfy ===
/** The public position browser: the same department filter and search as
    the student dashboard, the search also looking at a non-empty summary,
    and only open positions listed. */
module BrowsePositionsPage {
  import opened Seqs
  import opened Text
  import opened Types
  import opened PositionFilters
  import StudentDashboardPage

  /** Research area, professor, course code, or a summary that is not empty. */
  predicate MatchesSearch(p: ResearchPosition, query: string) {
    || MatchesQuery(p.researchArea, query)
    || MatchesQuery(p.professorName, query)
    || MatchesQuery(p.courseCode, query)
    || (p.summary != "" && MatchesQuery(p.summary, query))
  }

  predicate Listed(p: ResearchPosition, departmentFilter: string, query: string) {
    MatchesDepartment(p, departmentFilter) && MatchesSearch(p, query) && p.status == Open
  }

  /** The positions listed, in their original order, all of them open. */
  function FilteredPositions(positions: seq<ResearchPosition>, departmentFilter: string, query: string)
    : (r: seq<ResearchPosition>)
    ensures IsSubsequence(r, positions)
    ensures forall p :: p in r ==> p.status == Open
    ensures forall p :: p in r <==>
      p in positions && MatchesDepartment(p, departmentFilter) && MatchesSearch(p, query) && p.status == Open
    ensures forall p :: p in positions ==>
      multiset(r)[p] == if Listed(p, departmentFilter, query) then multiset(positions)[p] else 0
  {
    Filter(positions, (p: ResearchPosition) => Listed(p, departmentFilter, query))
  }

  /** The two filter fields. */
  datatype Filters = Filters(department: string, query: string)

  /** Clear Filters puts back the wildcard department and the empty query. */
  const ClearedFilters: Filters := Filters(AllDepartments, "")

  /** Once cleared, the filters list exactly the open positions, in order. */
  lemma ClearedFiltersListOpenPositions(positions: seq<ResearchPosition>)
    ensures FilteredPositions(positions, ClearedFilters.department, ClearedFilters.query) ==
            Filter(positions, (p: ResearchPosition) => p.status == Open)
  {
    forall p: ResearchPosition
      ensures Listed(p, AllDepartments, "") == (p.status == Open)
    {
      EmptyQueryMatches(p.researchArea);
    }
    FilterCongruent(positions,
      (p: ResearchPosition) => Listed(p, AllDepartments, ""),
      (p: ResearchPosition) => p.status == Open);
  }

  /** Every open position the student dashboard lists for the same filters is listed here too. */
  lemma BrowseListsOpenDashboardPositions(positions: seq<ResearchPosition>, departmentFilter: string, query: string,
                                          p: ResearchPosition)
    requires p in StudentDashboardPage.FilteredPositions(positions, departmentFilter, query)
    requires p.status == Open
    ensures p in FilteredPositions(positions, departmentFilter, query)
  {
  }

  /** "Showing n open position(s)". */
  function ResultCountText(n: nat): (text: string)
    ensures StartsWith(text, "Showing " + NatToString(n) + " open position")
    ensures text[|text| - 1] == 's' <==> n != 1
  {
    "Showing " + NatToString(n) + " open position" + (if n != 1 then "s" else "")
  }
}

=== FILE: create_position.dfy ===
/** The create-position form: the six required fields are checked, then the
    minimum CGPA; the draft passed on has the credits and the CGPA parsed. */
module CreatePositionPage {
  import opened Wrappers
  import opened Types
  import opened Validation
  import opened PositionsContext

  /** The position form's text fields (shared with the edit page). */
  datatype PositionForm = PositionForm(
    researchArea: string,
    courseCode: string,
    credits: string,
    semester: string,
    prerequisites: string,
    minimumCGPA: string,
    summary: string,
    specificRequirements: string)

  /** Research area, course code, credits, semester, minimum CGPA and summary are required. */
  predicate RequiredFilled(f: PositionForm) {
    Filled(f.researchArea) && Filled(f.courseCode) && Filled(f.credits) &&
    Filled(f.semester) && Filled(f.minimumCGPA) && Filled(f.summary)
  }

  /** The two checks of a position form, required fields first, then the CGPA
      range, so at most one refusal is reported; the parsed CGPA on success. */
  function CheckPositionForm(f: PositionForm, parseFloat: string -> Option<real>): (r: Result<real, FormRefusal>)
    ensures !RequiredFilled(f) ==> r == Failure(MissingInformation)
    ensures RequiredFilled(f) && ParseCgpa(f.minimumCGPA, parseFloat).None? ==> r == Failure(InvalidCgpa)
    ensures r.Success? <==> RequiredFilled(f) && ParseCgpa(f.minimumCGPA, parseFloat).Some?
    ensures r.Success? ==> 0.0 <= r.value <= 10.0 && parseFloat(f.minimumCGPA) == Some(r.value)
  {
    if !RequiredFilled(f) then Failure(MissingInformation)
    else match ParseCgpa(f.minimumCGPA, parseFloat)
      case None => Failure(InvalidCgpa)
      case Some(v) => Success(v)
  }

  /** Prerequisites and specific requirements are optional: an empty value never blocks a submit. */
  lemma OptionalFieldsNeverBlock(f: PositionForm, parseFloat: string -> Option<real>, a: string, b: string)
    ensures CheckPositionForm(f, parseFloat) ==
      CheckPositionForm(f.(prerequisites := a, specificRequirements := b), parseFloat)
  {
  }

  /** The draft handed to the provider: credits through `parseInt`, the
      checked CGPA, and the other fields as typed. */
  function Submit(f: PositionForm, parseFloat: string -> Option<real>, parseInt: string -> Option<int>)
    : (r: Result<PositionDraft, FormRefusal>)
    ensures CheckPositionForm(f, parseFloat).Failure? ==> r == Failure(CheckPositionForm(f, parseFloat).error)
    ensures r.Success? <==> CheckPositionForm(f, parseFloat).Success?
    ensures r.Success? ==>
      && r.value.credits == parseInt(f.credits)
      && r.value.minimumCGPA == CheckPositionForm(f, parseFloat).value
      && r.value.researchArea == f.researchArea && r.value.courseCode == f.courseCode
      && r.value.semester == f.semester && r.value.summary == f.summary
      && r.value.prerequisites == Some(f.prerequisites)
      && r.value.specificRequirements == Some(f.specificRequirements)
  {
    match CheckPositionForm(f, parseFloat)
    case Failure(e) => Failure(e)
    case Success(cgpa) =>
      Success(PositionDraft(f.researchArea, f.courseCode, parseInt(f.credits), f.semester, Some(f.prerequisites),
        cgpa, f.summary, Some(f.specificRequirements)))
  }
}

=== FILE: edit_position.dfy ===
/** The edit-position page: on load, a professor's own position fills the
    form (an unknown or foreign position sets an error instead); a submit
    runs the creation checks, then needs a position id, and sends every
    field; a delete needs a position id and the user's confirmation. */
module EditPositionPage {
  import opened Wrappers
  import opened Types
  import opened Validation
  import opened CreatePositionPage
  import PositionsContext

  /** The position form plus the status select, which offers only `open` and `closed`. */
  datatype EditForm = EditForm(fields: PositionForm, status: PositionStatus)

  const InitialForm: EditForm := EditForm(PositionForm("", "", "", "", "", "", "", ""), Open)

  datatype LoadError = PositionMissing | NotYourPosition

  /** Credits as text: a number that is not one (NaN) shows as "NaN". */
  function CreditsText(credits: Option<int>, showInt: int -> string): string {
    match credits
    case Some(c) => showInt(c)
    case None => "NaN"
  }

  /** The form filled from a position: missing optional fields become "". */
  function Prefill(p: ResearchPosition, showInt: int -> string, showReal: real -> string): (f: EditForm)
    ensures f.status == p.status
    ensures f.fields.prerequisites == p.prerequisites.GetOr("")
    ensures f.fields.specificRequirements == p.specificRequirements.GetOr("")
  {
    EditForm(PositionForm(p.researchArea, p.courseCode, CreditsText(p.credits, showInt), p.semester,
      p.prerequisites.GetOr(""), showReal(p.minimumCGPA), p.summary, p.specificRequirements.GetOr("")),
      p.status)
  }

  class EditPositionPage {
    var form: EditForm
    var error: Option<LoadError>

    constructor()
      ensures form == InitialForm && error == None
    {
      form := InitialForm;
      error := None;
    }

    /** The load effect. Nothing happens for a visitor who is not a
        professor or without a position id; otherwise the position is looked
        up in the provider, and only the owner's position fills the form. */
    method Load(positions: PositionsContext.PositionsProvider, user: Option<User>, positionId: string,
                showInt: int -> string, showReal: real -> string)
      modifies this
      ensures !PositionsContext.IsProfessor(user) || positionId == "" ==> form == old(form) && error == old(error)
      ensures PositionsContext.IsProfessor(user) && positionId != "" ==>
        match positions.GetPositionById(positionId)
        case None => error == Some(PositionMissing) && form == old(form)
        case Some(p) =>
          if p.professorId != user.value.professor.id then error == Some(NotYourPosition) && form == old(form)
          else form == Prefill(p, showInt, showReal) && error == old(error)
    {
      if !PositionsContext.IsProfessor(user) || positionId == "" {
        return;
      }
      var position := positions.GetPositionById(positionId);
      if position.None? {
        error := Some(PositionMissing);
        return;
      }
      if position.value.professorId != user.value.professor.id {
        error := Some(NotYourPosition);
        return;
      }
      form := Prefill(position.value, showInt, showReal);
    }
  }

  /** The checks, in order: required fields, the CGPA range, then the
      position id. An accepted submit sends every field, credits and CGPA parsed. */
  function Submit(f: EditForm, positionId: string, parseFloat: string -> Option<real>, parseInt: string -> Option<int>)
    : (r: Result<PositionPatch, FormRefusal>)
    ensures CheckPositionForm(f.fields, parseFloat).Failure? ==>
      r == Failure(CheckPositionForm(f.fields, parseFloat).error)
    ensures CheckPositionForm(f.fields, parseFloat).Success? && positionId == "" ==> r == Failure(MissingPositionId)
    ensures r.Success? <==> CheckPositionForm(f.fields, parseFloat).Success? && positionId != ""
    ensures r.Success? ==>
      && r.value.credits == Some(parseInt(f.fields.credits))
      && r.value.minimumCGPA == Some(CheckPositionForm(f.fields, parseFloat).value)
      && r.value.status == Some(f.status)
      && r.value.researchArea == Some(f.fields.researchArea) && r.value.courseCode == Some(f.fields.courseCode)
      && r.value.semester == Some(f.fields.semester) && r.value.summary == Some(f.fields.summary)
      && r.value.prerequisites == Some(f.fields.prerequisites)
      && r.value.specificRequirements == Some(f.fields.specificRequirements)
  {
    match CheckPositionForm(f.fields, parseFloat)
    case Failure(e) => Failure(e)
    case Success(cgpa) =>
      if positionId == "" then Failure(MissingPositionId)
      else
        var g := f.fields;
        Success(PositionPatch(Some(g.researchArea), Some(g.courseCode), Some(parseInt(g.credits)), Some(g.semester),
          Some(g.prerequisites), Some(cgpa), Some(g.summary), Some(g.specificRequirements), Some(f.status)))
  }

  /** Saving the loaded form unedited writes the position back unchanged,
      except that missing optional fields are stored as "", provided the
      required fields are shown non-empty and the numbers survive their
      text form. */
  lemma SaveUnchangedPosition(p: ResearchPosition, positionId: string, showInt: int -> string, showReal: real -> string,
                              parseFloat: string -> Option<real>, parseInt: string -> Option<int>)
    requires positionId != ""
    requires RequiredFilled(Prefill(p, showInt, showReal).fields)
    requires parseInt(CreditsText(p.credits, showInt)) == p.credits
    requires parseFloat(showReal(p.minimumCGPA)) == Some(p.minimumCGPA) && 0.0 <= p.minimumCGPA <= 10.0
    ensures Submit(Prefill(p, showInt, showReal), positionId, parseFloat, parseInt).Success?
    ensures MergePosition(p, Submit(Prefill(p, showInt, showReal), positionId, parseFloat, parseInt).value) ==
      p.(prerequisites := Some(p.prerequisites.GetOr("")),
         specificRequirements := Some(p.specificRequirements.GetOr("")))
  {
  }

  /** Edits and creations agree on which forms pass their checks. */
  lemma EditChecksMatchCreation(f: EditForm, positionId: string, parseFloat: string -> Option<real>,
                                parseInt: string -> Option<int>)
    requires positionId != ""
    ensures Submit(f, positionId, parseFloat, parseInt).Success? <==>
      CreatePositionPage.Submit(f.fields, parseFloat, parseInt).Success?
  {
  }

  /** The delete handler calls the provider only with a position id and the user's confirmation. */
  function DeleteRequest(positionId: string, confirmed: bool): (r: Option<string>)
    ensures r.Some? <==> positionId != "" && confirmed
    ensures r.Some? ==> r.value == positionId
  {
    if positionId == "" || !confirmed then None else Some(positionId)
  }
}

=== FILE: mock_data.dfy ===
/** The in-memory data service: four tables (students, professors,
    positions, applications) and the id of the logged-in user, changed in
    place by login, register, logout, the profile updates and the
    create/update/delete operations, and read by the queries. */
module MockData {
  import opened Wrappers
  import opened Seqs
  import opened Text
  import opened Types

  /** Only addresses of the Goa campus may log in or register. */
  const CampusDomain: string := "@goa.bits-pilani.ac.in"

  datatype StoreError = EmailNotAllowed | InvalidCredentials | RoleRequired | StudentNotFound | ProfessorNotFound

  function Message(e: StoreError): string {
    match e
    case EmailNotAllowed => "Only BITS Pilani Goa campus emails are allowed"
    case InvalidCredentials => "Invalid credentials"
    case RoleRequired => "Role is required"
    case StudentNotFound => "Student not found"
    case ProfessorNotFound => "Professor not found"
  }

  /** The partial user that `register` receives. */
  datatype RegisterData = RegisterData(
    fullName: Option<string>,
    idNumber: Option<string>,
    email: Option<string>,
    whatsappNumber: Option<string>,
    role: Option<Role>,
    cgpa: Option<real>,
    designation: Option<Designation>,
    department: Option<string>,
    chamberNumber: Option<string>)

  /** The user `register` builds: the email suffix is checked first, then the
      role; absent fields get their defaults and present ones are kept. */
  function NewUser(data: RegisterData, id: string): (r: Result<User, StoreError>)
    ensures r.Success? <==> data.email.Some? && EndsWith(data.email.value, CampusDomain) && data.role.Some?
    ensures (data.email.None? || !EndsWith(data.email.value, CampusDomain)) ==> r == Failure(EmailNotAllowed)
    ensures data.email.Some? && EndsWith(data.email.value, CampusDomain) && data.role.None? ==>
      r == Failure(RoleRequired)
    ensures r.Success? ==> r.value.Id() == id && r.value.Role() == data.role.value
    ensures r.Success? && r.value.StudentUser? ==>
      var s := r.value.student;
      && s.fullName == data.fullName.GetOr("") && s.idNumber == data.idNumber.GetOr("")
      && s.email == data.email.value && s.whatsappNumber == data.whatsappNumber.GetOr("")
      && s.cgpa == data.cgpa.GetOr(0.0)
      && s.btechBranch.None? && s.dualDegree.None? && s.minorDegree.None?
    ensures r.Success? && r.value.ProfessorUser? ==>
      var p := r.value.professor;
      && p.fullName == data.fullName.GetOr("") && p.idNumber == data.idNumber.GetOr("")
      && p.email == data.email.value && p.whatsappNumber == data.whatsappNumber.GetOr("")
      && p.designation == data.designation.GetOr(AssistantProfessor)
      && p.department == data.department.GetOr("") && p.chamberNumber == data.chamberNumber.GetOr("")
      && p.researchInterests.None?
  {
    if data.email.None? || !EndsWith(data.email.value, CampusDomain) then Failure(EmailNotAllowed)
    else if data.role.None? then Failure(RoleRequired)
    else if data.role.value == Student then
      Success(StudentUser(StudentProfile(
        id, data.fullName.GetOr(""), data.idNumber.GetOr(""), data.email.value,
        data.whatsappNumber.GetOr(""), None, None, None, data.cgpa.GetOr(0.0))))
    else
      Success(ProfessorUser(ProfessorProfile(
        id, data.fullName.GetOr(""), data.idNumber.GetOr(""), data.email.value,
        data.whatsappNumber.GetOr(""), data.designation.GetOr(AssistantProfessor),
        data.department.GetOr(""), data.chamberNumber.GetOr(""), None)))
  }

  /** The id `createPosition` gives the n-th position: `pos{n}`. */
  function PositionId(n: nat): string {
    "pos" + NatToString(n)
  }

  /** The id `createApplication` gives the n-th application: `app{n}`. */
  function ApplicationId(n: nat): string {
    "app" + NatToString(n)
  }

  /** `positions.map(p => p.id === id ? { ...p, ...patch } : p)`. */
  function UpdatedPositions(ps: seq<ResearchPosition>, id: string, patch: PositionPatch): (r: seq<ResearchPosition>)
    ensures |r| == |ps|
    ensures forall i :: 0 <= i < |ps| ==> r[i].id == ps[i].id
    ensures forall i :: 0 <= i < |ps| && ps[i].id != id ==> r[i] == ps[i]
    ensures forall i :: 0 <= i < |ps| && ps[i].id == id ==> r[i] == MergePosition(ps[i], patch)
    decreases |ps|
  {
    if ps == [] then []
    else [if ps[0].id == id then MergePosition(ps[0], patch) else ps[0]] + UpdatedPositions(ps[1..], id, patch)
  }

  /** `applications.map(a => a.id === id ? { ...a, ...patch } : a)`, the patch holding a status at most. */
  function UpdatedApplications(apps: seq<Application>, id: string, status: Option<ApplicationStatus>): (r: seq<Application>)
    ensures |r| == |apps|
    ensures forall i :: 0 <= i < |apps| && apps[i].id != id ==> r[i] == apps[i]
    ensures forall i :: 0 <= i < |apps| && apps[i].id == id ==> r[i] == apps[i].(status := status.GetOr(apps[i].status))
    decreases |apps|
  {
    if apps == [] then []
    else
      [if apps[0].id == id then apps[0].(status := status.GetOr(apps[0].status)) else apps[0]]
      + UpdatedApplications(apps[1..], id, status)
  }

  /** `positions.filter(p => p.id !== id)`. */
  function RemovePosition(ps: seq<ResearchPosition>, id: string): (r: seq<ResearchPosition>)
    ensures forall p :: p in r ==> p.id != id
    ensures forall p :: p in ps && p.id != id ==> p in r
    ensures forall p :: p in ps ==> multiset(r)[p] == if p.id != id then multiset(ps)[p] else 0
    ensures IsSubsequence(r, ps)
  {
    Filter(ps, (p: ResearchPosition) => p.id != id)
  }

  /** The i-th position carries the id `pos{i+1}`: true of the seed table and
      kept by `createPosition`, but not by `deletePosition`. */
  ghost predicate SequentialIds(ps: seq<ResearchPosition>) {
    forall i :: 0 <= i < |ps| ==> ps[i].id == PositionId(i + 1)
  }

  lemma PositionIdInjective(m: nat, n: nat)
    requires PositionId(m) == PositionId(n)
    ensures m == n
  {
    var a, b := NatToString(m), NatToString(n);
    assert a == PositionId(m)[3..];
    assert b == PositionId(n)[3..];
    NatToStringInjective(m, n);
  }

  /** While no position has been deleted, the id `createPosition` picks is fresh. */
  lemma NewPositionIdFresh(ps: seq<ResearchPosition>)
    requires SequentialIds(ps)
    ensures forall p :: p in ps ==> p.id != PositionId(|ps| + 1)
  {
    forall p | p in ps ensures p.id != PositionId(|ps| + 1) {
      var i :| 0 <= i < |ps| && ps[i] == p;
      if p.id == PositionId(|ps| + 1) {
        PositionIdInjective(i + 1, |ps| + 1);
      }
    }
  }

  /** Appending a position with the next id keeps the ids sequential. */
  lemma AppendKeepsSequentialIds(ps: seq<ResearchPosition>, data: ResearchPosition)
    requires SequentialIds(ps)
    ensures SequentialIds(ps + [data.(id := PositionId(|ps| + 1))])
  {
  }

  /** After deleting `pos1` from `[pos1, pos2]`, the next position is again
      called `pos2`: `createPosition` ids are not fresh once a delete happened. */
  lemma IdReusedAfterDelete(p: ResearchPosition)
    ensures var ps := [p.(id := "pos1"), p.(id := "pos2")];
            var after := RemovePosition(ps, "pos1");
            |after| == 1 && PositionId(|after| + 1) == after[0].id
  {
    var ps := [p.(id := "pos1"), p.(id := "pos2")];
    var after := RemovePosition(ps, "pos1");
    assert after == [p.(id := "pos2")] by {
      assert ps[1..] == [p.(id := "pos2")];
      assert ps[1..][1..] == [];
    }
    assert NatToString(2) == "2";
  }

  /** Once two professors' positions share an id, as after a reused id, the
      owner's delete removes the other professor's row too, and the owner's
      update patches it too. */
  lemma SharedIdReachesOtherOwner(mine: ResearchPosition, theirs: ResearchPosition, patch: PositionPatch)
    requires mine.id == theirs.id && mine.professorId != theirs.professorId
    ensures RemovePosition([mine, theirs], mine.id) == []
    ensures UpdatedPositions([mine, theirs], mine.id, patch) == [MergePosition(mine, patch), MergePosition(theirs, patch)]
  {
  }

  class MockDataService {
    var students: seq<StudentProfile>
    var professors: seq<ProfessorProfile>
    var positions: seq<ResearchPosition>
    var applications: seq<Application>
    var currentUser: Option<string>

    /** The tables start as copies of the seed data, with nobody logged in. */
    constructor()
      ensures students == MockStudents && professors == MockProfessors
      ensures positions == MockPositions && applications == MockApplications
      ensures currentUser == None
      ensures UniqueIds()
    {
      SeedIdsUnique();
      students := MockStudents;
      professors := MockProfessors;
      positions := MockPositions;
      applications := MockApplications;
      currentUser := None;
    }

    /** Every user id is non-empty and names one row of one table. Seeded
        tables have it; a registration with a fresh id and the profile
        updates keep it. */
    ghost predicate UniqueIds()
      reads this
    {
      && (forall i :: 0 <= i < |students| ==> students[i].id != "")
      && (forall j :: 0 <= j < |professors| ==> professors[j].id != "")
      && (forall i, k :: 0 <= i < k < |students| ==> students[i].id != students[k].id)
      && (forall j, k :: 0 <= j < k < |professors| ==> professors[j].id != professors[k].id)
      && (forall i, j :: 0 <= i < |students| && 0 <= j < |professors| ==> students[i].id != professors[j].id)
    }

    /** With unique ids, the session of the i-th student resolves to that student. */
    lemma CurrentStudent(i: nat)
      requires UniqueIds() && i < |students| && currentUser == Some(students[i].id)
      ensures GetCurrentUser() == Some(StudentUser(students[i]))
    {
      var id := students[i].id;
      var k := FindIndex(students, (s: StudentProfile) => s.id == id);
      assert k.Some?;
    }

    /** With unique ids, the session of the j-th professor resolves to that professor. */
    lemma CurrentProfessor(j: nat)
      requires UniqueIds() && j < |professors| && currentUser == Some(professors[j].id)
      ensures GetCurrentUser() == Some(ProfessorUser(professors[j]))
    {
      var id := professors[j].id;
      assert Find(students, (s: StudentProfile) => s.id == id).None? by {
        forall s | s in students ensures s.id != id {
          var i :| 0 <= i < |students| && students[i] == s;
        }
      }
      var k := FindIndex(professors, (p: ProfessorProfile) => p.id == id);
      assert k.Some?;
    }

    /** The user an email belongs to: the first student with it, else the first professor with it. */
    function FindByEmail(email: string): (u: Option<User>)
      reads this
      ensures u.Some? && u.value.StudentUser? ==>
        IsFirst(students, (s: StudentProfile) => s.email == email, u.value.student)
      ensures u.Some? && u.value.ProfessorUser? ==>
        && IsFirst(professors, (p: ProfessorProfile) => p.email == email, u.value.professor)
        && forall s :: s in students ==> s.email != email
      ensures u.None? <==>
        (forall s :: s in students ==> s.email != email) && (forall p :: p in professors ==> p.email != email)
    {
      match Find(students, (s: StudentProfile) => s.email == email)
      case Some(s) => Some(StudentUser(s))
      case None =>
        match Find(professors, (p: ProfessorProfile) => p.email == email)
        case Some(p) => Some(ProfessorUser(p))
        case None => None
    }

    /** Login checks the campus suffix, then looks the email up among students
        and then professors and makes the match the session user; the
        password is not consulted. */
    method Login(email: string, password: string) returns (r: Result<User, StoreError>)
      modifies this`currentUser
      ensures !EndsWith(email, CampusDomain) ==> r == Failure(EmailNotAllowed) && currentUser == old(currentUser)
      ensures EndsWith(email, CampusDomain) && FindByEmail(email).Some? ==>
        r == Success(FindByEmail(email).value) && currentUser == Some(r.value.Id())
      ensures EndsWith(email, CampusDomain) && FindByEmail(email).None? ==>
        r == Failure(InvalidCredentials) && currentUser == old(currentUser)
      ensures UniqueIds() && r.Success? ==> GetCurrentUser() == Some(r.value)
    {
      if !EndsWith(email, CampusDomain) {
        return Failure(EmailNotAllowed);
      }
      var student := Find(students, (s: StudentProfile) => s.email == email);
      if student.Some? {
        currentUser := Some(student.value.id);
        r := Success(StudentUser(student.value));
        if UniqueIds() {
          var i :| 0 <= i < |students| && students[i] == student.value;
          CurrentStudent(i);
        }
        return;
      }
      var professor := Find(professors, (p: ProfessorProfile) => p.email == email);
      if professor.Some? {
        currentUser := Some(professor.value.id);
        r := Success(ProfessorUser(professor.value));
        if UniqueIds() {
          var j :| 0 <= j < |professors| && professors[j] == professor.value;
          CurrentProfessor(j);
        }
        return;
      }
      return Failure(InvalidCredentials);
    }

    /** Register appends exactly one user to the table for its role and logs it in.
        The random id of the source is the parameter `id`. */
    method Register(data: RegisterData, id: string) returns (r: Result<User, StoreError>)
      modifies this`students, this`professors, this`currentUser
      ensures r == NewUser(data, id)
      ensures r.Failure? ==>
        students == old(students) && professors == old(professors) && currentUser == old(currentUser)
      ensures r.Success? && r.value.StudentUser? ==>
        students == old(students) + [r.value.student] && professors == old(professors) && currentUser == Some(id)
      ensures r.Success? && r.value.ProfessorUser? ==>
        professors == old(professors) + [r.value.professor] && students == old(students) && currentUser == Some(id)
      ensures old(UniqueIds()) && r.Failure? ==> UniqueIds()
      ensures old(UniqueIds()) && r.Success? && old(IsFreshId(id)) ==> UniqueIds() && GetCurrentUser() == Some(r.value)
    {
      r := NewUser(data, id);
      if r.Success? {
        if r.value.StudentUser? {
          students := students + [r.value.student];
        } else {
          professors := professors + [r.value.professor];
        }
        currentUser := Some(id);
        if old(UniqueIds()) && old(IsFreshId(id)) {
          if r.value.StudentUser? {
            CurrentStudent(|students| - 1);
          } else {
            CurrentProfessor(|professors| - 1);
          }
        }
      }
    }

    /** A non-empty id that no user has yet. */
    ghost predicate IsFreshId(id: string)
      reads this
    {
      id != "" &&
      (forall s :: s in students ==> s.id != id) && (forall p :: p in professors ==> p.id != id)
    }

    method Logout()
      modifies this`currentUser
      ensures currentUser == None
      ensures GetCurrentUser() == None
    {
      currentUser := None;
    }

    /** The logged-in user: the first student with the current id, else the
        first professor with it; nobody when the id is absent or empty. */
    function GetCurrentUser(): (u: Option<User>)
      reads this
      ensures (currentUser.None? || currentUser.value == "") ==> u == None
      ensures u.Some? ==> currentUser.Some? && u.value.Id() == currentUser.value
      ensures u.Some? && u.value.StudentUser? ==> u.value.student in students
      ensures u.Some? && u.value.ProfessorUser? ==>
        u.value.professor in professors && forall s :: s in students ==> s.id != currentUser.value
      ensures u.None? && currentUser.Some? && currentUser.value != "" ==>
        (forall s :: s in students ==> s.id != currentUser.value) &&
        (forall p :: p in professors ==> p.id != currentUser.value)
    {
      if currentUser.None? || currentUser.value == "" then None
      else
        var id := currentUser.value;
        match Find(students, (s: StudentProfile) => s.id == id)
        case Some(s) => Some(StudentUser(s))
        case None =>
          match Find(professors, (p: ProfessorProfile) => p.id == id)
          case Some(p) => Some(ProfessorUser(p))
          case None => None
    }

    /** Merges the patch into the first student with this id; no other row changes. */
    method UpdateStudentProfile(id: string, patch: ProfilePatch) returns (r: Result<StudentProfile, StoreError>)
      modifies this`students
      ensures |students| == |old(students)|
      ensures match FindIndex(old(students), (s: StudentProfile) => s.id == id)
        case None => r == Failure(StudentNotFound) && students == old(students)
        case Some(i) =>
          students == old(students)[i := MergeStudent(old(students)[i], patch)] && r == Success(students[i])
      ensures old(UniqueIds()) ==> UniqueIds()
    {
      var i := FindIndex(students, (s: StudentProfile) => s.id == id);
      if i.None? {
        return Failure(StudentNotFound);
      }
      students := students[i.value := MergeStudent(students[i.value], patch)];
      r := Success(students[i.value]);
    }

    /** Merges the patch into the first professor with this id; no other row changes. */
    method UpdateProfessorProfile(id: string, patch: ProfilePatch) returns (r: Result<ProfessorProfile, StoreError>)
      modifies this`professors
      ensures |professors| == |old(professors)|
      ensures match FindIndex(old(professors), (p: ProfessorProfile) => p.id == id)
        case None => r == Failure(ProfessorNotFound) && professors == old(professors)
        case Some(i) =>
          professors == old(professors)[i := MergeProfessor(old(professors)[i], patch)] && r == Success(professors[i])
      ensures old(UniqueIds()) ==> UniqueIds()
    {
      var i := FindIndex(professors, (p: ProfessorProfile) => p.id == id);
      if i.None? {
        return Failure(ProfessorNotFound);
      }
      professors := professors[i.value := MergeProfessor(professors[i.value], patch)];
      r := Success(professors[i.value]);
    }

    /** A professor sees exactly their own positions, whatever their status;
        anybody else sees exactly the open ones. Order is kept. */
    function GetPositions(): (r: seq<ResearchPosition>)
      reads this
      ensures IsSubsequence(r, positions)
      ensures var u := GetCurrentUser();
        u.Some? && u.value.ProfessorUser? ==>
          forall p :: p in r <==> p in positions && p.professorId == u.value.professor.id
      ensures var u := GetCurrentUser();
        u.Some? && u.value.ProfessorUser? ==>
          forall p :: p in positions ==>
            multiset(r)[p] == if p.professorId == u.value.professor.id then multiset(positions)[p] else 0
      ensures var u := GetCurrentUser();
        !(u.Some? && u.value.ProfessorUser?) ==>
          forall p :: p in r <==> p in positions && p.status == Open
      ensures var u := GetCurrentUser();
        !(u.Some? && u.value.ProfessorUser?) ==>
          forall p :: p in positions ==> multiset(r)[p] == if p.status == Open then multiset(positions)[p] else 0
    {
      var u := GetCurrentUser();
      if u.Some? && u.value.ProfessorUser? then
        var id := u.value.professor.id;
        Filter(positions, (p: ResearchPosition) => p.professorId == id)
      else
        Filter(positions, (p: ResearchPosition) => p.status == Open)
    }

    /** The first position with this id, if any. */
    function GetPosition(id: string): (r: Option<ResearchPosition>)
      reads this
      ensures r.Some? ==> r.value in positions && r.value.id == id
      ensures r.Some? ==> IsFirst(positions, (p: ResearchPosition) => p.id == id, r.value)
      ensures r.None? <==> forall p :: p in positions ==> p.id != id
    {
      Find(positions, (p: ResearchPosition) => p.id == id)
    }

    /** Appends one position with id `pos{n+1}`; no duplicate check, other rows untouched. */
    method CreatePosition(data: ResearchPosition) returns (p: ResearchPosition)
      modifies this`positions
      ensures p == data.(id := PositionId(|old(positions)| + 1))
      ensures positions == old(positions) + [p]
    {
      p := data.(id := PositionId(|positions| + 1));
      positions := positions + [p];
    }

    /** Merges the patch into every position with this id and returns the first of them. */
    method UpdatePosition(id: string, patch: PositionPatch) returns (r: Option<ResearchPosition>)
      modifies this`positions
      ensures positions == UpdatedPositions(old(positions), id, patch)
      ensures r == GetPosition(id)
    {
      positions := UpdatedPositions(positions, id, patch);
      r := GetPosition(id);
    }

    /** Removes every position with this id; applications are not touched. */
    method DeletePosition(id: string)
      modifies this`positions
      ensures positions == RemovePosition(old(positions), id)
    {
      positions := RemovePosition(positions, id);
    }

    /** The applications, narrowed by position and by student when those filters are non-empty. */
    function GetApplications(positionId: Option<string>, studentId: Option<string>): (r: seq<Application>)
      reads this
      ensures IsSubsequence(r, applications)
      ensures forall a :: a in r <==>
        a in applications &&
        (positionId.None? || positionId.value == "" || a.positionId == positionId.value) &&
        (studentId.None? || studentId.value == "" || a.studentId == studentId.value)
      ensures forall a :: a in applications ==>
        multiset(r)[a] ==
          if && (positionId.None? || positionId.value == "" || a.positionId == positionId.value)
             && (studentId.None? || studentId.value == "" || a.studentId == studentId.value)
          then multiset(applications)[a] else 0
    {
      var byPosition :=
        if positionId.Some? && positionId.value != "" then
          Filter(applications, (a: Application) => a.positionId == positionId.value)
        else applications;
      SubsequenceReflexive(applications);
      if studentId.Some? && studentId.value != "" then
        var r := Filter(byPosition, (a: Application) => a.studentId == studentId.value);
        SubsequenceTransitive(r, byPosition, applications);
        r
      else byPosition
    }

    /** Appends one pending application with id `app{n+1}`; no duplicate check. */
    method CreateApplication(data: Application) returns (a: Application)
      modifies this`applications
      ensures a == data.(id := ApplicationId(|old(applications)| + 1), status := Pending)
      ensures applications == old(applications) + [a]
    {
      a := data.(id := ApplicationId(|applications| + 1), status := Pending);
      applications := applications + [a];
    }

    /** Sets the status of every application with this id and returns the first of them. */
    method UpdateApplication(id: string, status: Option<ApplicationStatus>) returns (r: Option<Application>)
      modifies this`applications
      ensures applications == UpdatedApplications(old(applications), id, status)
      ensures r.None? <==> forall a :: a in applications ==> a.id != id
      ensures r.Some? ==> r.value in applications && r.value.id == id
      ensures r.Some? ==> IsFirst(applications, (a: Application) => a.id == id, r.value)
    {
      applications := UpdatedApplications(applications, id, status);
      r := Find(applications, (a: Application) => a.id == id);
    }

    /** Every position of one professor, whatever its status, in table order. */
    function GetPositionsByProfessor(professorId: string): (r: seq<ResearchPosition>)
      reads this
      ensures IsSubsequence(r, positions)
      ensures forall p :: p in r <==> p in positions && p.professorId == professorId
      ensures forall p :: p in positions ==>
        multiset(r)[p] == if p.professorId == professorId then multiset(positions)[p] else 0
    {
      Filter(positions, (p: ResearchPosition) => p.professorId == professorId)
    }

    /** A logged-in professor's listing is the by-professor listing, closed positions included. */
    lemma ProfessorListingIsOwnPositions(prof: ProfessorProfile)
      requires GetCurrentUser() == Some(ProfessorUser(prof))
      ensures GetPositions() == GetPositionsByProfessor(prof.id)
    {
      var id := GetCurrentUser().value.professor.id;
      FilterCongruent(positions,
        (p: ResearchPosition) => p.professorId == id,
        (p: ResearchPosition) => p.professorId == prof.id);
    }

    /** Every application for one position, in table order. */
    function GetApplicationsForPosition(positionId: string): (r: seq<Application>)
      reads this
      ensures IsSubsequence(r, applications)
      ensures forall a :: a in r <==> a in applications && a.positionId == positionId
      ensures forall a :: a in applications ==>
        multiset(r)[a] == if a.positionId == positionId then multiset(applications)[a] else 0
    {
      Filter(applications, (a: Application) => a.positionId == positionId)
    }

    /** Some application has this student and this position. */
    ghost predicate AppliedFor(studentId: string, positionId: string)
      reads this
    {
      exists a :: a in applications && a.studentId == studentId && a.positionId == positionId
    }

    /** The positions this student has applied to, in table order. */
    function GetAppliedPositions(studentId: string): (r: seq<ResearchPosition>)
      reads this
      ensures IsSubsequence(r, positions)
      ensures forall p :: p in r <==> p in positions && AppliedFor(studentId, p.id)
      ensures forall p :: p in positions ==>
        multiset(r)[p] == if AppliedFor(studentId, p.id) then multiset(positions)[p] else 0
    {
      var mine := Filter(applications, (a: Application) => a.studentId == studentId);
      var ids := seq(|mine|, i requires 0 <= i < |mine| => mine[i].positionId);
      var r := Filter(positions, (p: ResearchPosition) => p.id in ids);
      forall pid: string
        ensures pid in ids <==> AppliedFor(studentId, pid)
      {
        if pid in ids {
          var k :| 0 <= k < |mine| && ids[k] == pid;
          assert mine[k] in mine;
        }
        if AppliedFor(studentId, pid) {
          var a :| a in applications && a.studentId == studentId && a.positionId == pid;
          assert a in mine;
          var k :| 0 <= k < |mine| && mine[k] == a;
          assert ids[k] == pid;
        }
      }
      r
    }

    /** Whether some application has this student and this position. */
    function HasApplied(studentId: string, positionId: string): (b: bool)
      reads this
      ensures b <==> AppliedFor(studentId, positionId)
    {
      Any(applications, (a: Application) => a.studentId == studentId && a.positionId == positionId)
    }
  }

  const MockStudents: seq<StudentProfile> := [
    StudentProfile("s1", "Aaditya Sharma", "2021A7PS0001G", "f20210001@goa.bits-pilani.ac.in", "9876543210",
      Some("Computer Science"), Some("MSc. Economics"), None, 9.2),
    StudentProfile("s2", "Priya Patel", "2021A3PS0042G", "f20210042@goa.bits-pilani.ac.in", "9876543211",
      Some("Mechanical Engineering"), None, Some("Finance"), 8.7),
    StudentProfile("s3", "Rahul Gupta", "2022A8PS0103G", "f20220103@goa.bits-pilani.ac.in", "9876543212",
      Some("Electronics and Communication"), None, None, 8.1)
  ]

  const MockProfessors: seq<ProfessorProfile> := [
    ProfessorProfile("p1", "Dr. Anand Mishra", "PROF001", "anand@goa.bits-pilani.ac.in", "9876543213",
      FullProfessor, "Computer Science", "A-212",
      Some(["Machine Learning", "Computer Vision", "Natural Language Processing"])),
    ProfessorProfile("p2", "Dr. Sunita Verma", "PROF002", "sunita@goa.bits-pilani.ac.in", "9876543214",
      AssociateProfessor, "Mechanical Engineering", "B-113",
      Some(["Fluid Dynamics", "Thermal Engineering"])),
    ProfessorProfile("p3", "Dr. Rajesh Kumar", "PROF003", "rajesh@goa.bits-pilani.ac.in", "9876543215",
      AssistantProfessor, "Economics", "C-302",
      Some(["Macroeconomics", "Development Economics"]))
  ]

  const MockPositions: seq<ResearchPosition> := [
    ResearchPosition("pos1", "p1", "Dr. Anand Mishra", "Machine Learning", "CS F266", Some(3),
      "Academic Year 24-25 Semester-1", Some("CS F111 with Grade: A or above"), 8.0,
      "Development of deep learning models for image classification and object detection.",
      Some("Proficiency in Python and PyTorch/TensorFlow is required."), Open, "Computer Science"),
    ResearchPosition("pos2", "p2", "Dr. Sunita Verma", "Computational Fluid Dynamics", "ME F266", Some(4),
      "Academic Year 24-25 Semester-1", Some("ME F211 (Fluid Mechanics) with Grade: B or above"), 7.5,
      "Simulation of fluid flow and heat transfer in microchannels.",
      None, Open, "Mechanical Engineering"),
    ResearchPosition("pos3", "p3", "Dr. Rajesh Kumar", "Econometric Analysis", "ECON F266", Some(3),
      "Academic Year 24-25 Semester-2", Some("ECON F111 with Grade: B or above"), 7.0,
      "Statistical analysis of economic data using regression models.",
      Some("Familiarity with statistical software (R/STATA) is preferred."), Open, "Economics"),
    ResearchPosition("pos4", "p1", "Dr. Anand Mishra", "Natural Language Processing", "CS F367", Some(3),
      "Academic Year 24-25 Semester-2", Some("CS F266 with Grade: B or above"), 7.5,
      "Research on transformer models for Indian languages.",
      Some("Experience with PyTorch and transformers library preferred."), Open, "Computer Science"),
    ResearchPosition("pos5", "p2", "Dr. Sunita Verma", "Renewable Energy Systems", "ME F366", Some(4),
      "Academic Year 24-25 Semester-2", Some("ME F266 with Grade: B or above"), 7.0,
      "Design and optimization of solar thermal systems.",
      None, Open, "Mechanical Engineering")
  ]

  const MockApplications: seq<Application> := [
    Application("app1", "pos1", "s1", "Aaditya Sharma", "2021A7PS0001G", "f20210001@goa.bits-pilani.ac.in",
      Some("Computer Science"), Some("MSc. Economics"), None, "9876543210", 9.2,
      "I have experience in machine learning projects and have worked with PyTorch for image classification tasks. I am excited to contribute to research in this field.",
      Pending),
    Application("app2", "pos2", "s3", "Rahul Gupta", "2022A8PS0103G", "f20220103@goa.bits-pilani.ac.in",
      Some("Electronics and Communication"), None, None, "9876543212", 8.1,
      "I have a strong interest in fluid dynamics and have completed relevant coursework. I am eager to apply my knowledge to computational simulations.",
      Shortlisted),
    Application("app3", "pos1", "s2", "Priya Patel", "2021A3PS0042G", "f20210042@goa.bits-pilani.ac.in",
      Some("Mechanical Engineering"), None, Some("Finance"), "9876543211", 8.7,
      "I have experience in deep learning and computer vision projects. I would love to contribute to this research.",
      Shortlisted),
    Application("app4", "pos1", "s3", "Rahul Gupta", "2022A8PS0103G", "f20220103@goa.bits-pilani.ac.in",
      Some("Electronics and Communication"), None, None, "9876543212", 8.1,
      "I am particularly interested in the intersection of ML and computer vision.",
      Rejected)
  ]

  /** The seed users have non-empty, pairwise distinct ids. */
  lemma SeedIdsUnique()
    ensures forall i :: 0 <= i < |MockStudents| ==> MockStudents[i].id != ""
    ensures forall j :: 0 <= j < |MockProfessors| ==> MockProfessors[j].id != ""
    ensures forall i, k :: 0 <= i < k < |MockStudents| ==> MockStudents[i].id != MockStudents[k].id
    ensures forall j, k :: 0 <= j < k < |MockProfessors| ==> MockProfessors[j].id != MockProfessors[k].id
    ensures forall i, j :: 0 <= i < |MockStudents| && 0 <= j < |MockProfessors| ==>
      MockStudents[i].id != MockProfessors[j].id
  {
  }

  /** The seed positions are numbered `pos1` to `pos5` in table order. */
  lemma SeedPositionsSequential()
    ensures SequentialIds(MockPositions)
  {
    assert NatToString(1) == "1" && NatToString(2) == "2" && NatToString(3) == "3";
    assert NatToString(4) == "4" && NatToString(5) == "5";
  }
}

=== FILE: position_filters.dfy ===
/** The position filters both listing pages share: the department choices
    offered, the department filter (`all` is a wildcard) and the
    case-insensitive substring search on one field. */
module PositionFilters {
  import opened Seqs
  import opened Text
  import opened Types

  /** The department filter's wildcard value. */
  const AllDepartments: string := "all"

  /** Some position of department `x` comes before every position of department `y`. */
  ghost predicate DepartmentFirstBefore(positions: seq<ResearchPosition>, x: string, y: string) {
    exists k ::
      && 0 <= k < |positions| && positions[k].department == x
      && forall m :: 0 <= m < k ==> positions[m].department != y
  }

  /** The departments of the listed positions, each once, in order of first appearance. */
  function Departments(positions: seq<ResearchPosition>): (r: seq<string>)
    ensures forall p :: p in positions ==> p.department in r
    ensures forall d :: d in r ==> exists p :: p in positions && p.department == d
    ensures forall i, j :: 0 <= i < j < |r| ==> r[i] != r[j]
    ensures forall i, j :: 0 <= i < j < |r| ==> DepartmentFirstBefore(positions, r[i], r[j])
  {
    var names := seq(|positions|, i requires 0 <= i < |positions| => positions[i].department);
    assert forall p :: p in positions ==> p.department in names by {
      forall p | p in positions ensures p.department in names {
        var i :| 0 <= i < |positions| && positions[i] == p;
        assert names[i] == p.department;
      }
    }
    var r := Distinct(names);
    forall i, j | 0 <= i < j < |r| ensures DepartmentFirstBefore(positions, r[i], r[j]) {
      DepartmentBefore(positions, names, r[i], r[j]);
    }
    r
  }

  /** A department that comes first among the department names comes first among the positions. */
  lemma DepartmentBefore(positions: seq<ResearchPosition>, names: seq<string>, x: string, y: string)
    requires |names| == |positions| && forall i :: 0 <= i < |names| ==> names[i] == positions[i].department
    requires OccursBefore(names, x, y)
    ensures DepartmentFirstBefore(positions, x, y)
  {
    var k :| 0 <= k < |names| && names[k] == x && y !in names[..k];
    forall m | 0 <= m < k ensures positions[m].department != y {
      assert names[..k][m] == names[m];
    }
  }

  predicate MatchesDepartment(p: ResearchPosition, filter: string) {
    filter == AllDepartments || p.department == filter
  }

  /** `field.toLowerCase().includes(query.toLowerCase())`. */
  predicate MatchesQuery(field: string, query: string) {
    Includes(Lower(field), Lower(query))
  }

  /** The empty query matches every field. */
  lemma EmptyQueryMatches(field: string)
    ensures MatchesQuery(field, "")
  {
    IncludesEmpty(Lower(field));
  }

  /** The query's case does not matter. */
  lemma QueryCaseInsensitive(field: string, query: string)
    ensures MatchesQuery(field, Lower(query)) == MatchesQuery(field, query)
  {
    LowerIdempotent(query);
  }
}

=== FILE: positions_context.dfy ===
/** The positions provider: a snapshot of the store's positions and
    applications for the current user, the role and ownership checks that
    run before every mutation, and the derived per-user views. A thrown
    error becomes a `Failure`/`Fail` result; the `error` state is kept as the
    source sets it. */
module PositionsContext {
  import opened Wrappers
  import opened Seqs
  import opened Types
  import opened MockData

  datatype PositionsError =
    | OnlyProfessorsCanCreate
    | OnlyProfessorsCanUpdate
    | NoPermissionToUpdate
    | OnlyProfessorsCanDelete
    | NoPermissionToDelete
    | OnlyStudentsCanApply
    | AlreadyApplied
    | PositionNotFound
    | CgpaBelowMinimum(cgpa: real, minimum: real)
    | OnlyProfessorsCanUpdateStatus
    | ApplicationNotFound
    | NoPermissionToUpdateApplication

  /** What `createPosition` receives from the page: everything but the id,
      the professor, the status and the creation time. */
  datatype PositionDraft = PositionDraft(
    researchArea: string,
    courseCode: string,
    credits: Option<int>,
    semester: string,
    prerequisites: Option<string>,
    minimumCGPA: real,
    summary: string,
    specificRequirements: Option<string>)

  /** The record handed to the store: the draft stamped with the professor's
      id, name and department and the status `open` (the store assigns the id). */
  function Stamped(d: PositionDraft, prof: ProfessorProfile): (p: ResearchPosition)
    ensures p.professorId == prof.id && p.professorName == prof.fullName
    ensures p.department == prof.department && p.status == Open
    ensures p.minimumCGPA == d.minimumCGPA
  {
    ResearchPosition("", prof.id, prof.fullName, d.researchArea, d.courseCode, d.credits, d.semester,
      d.prerequisites, d.minimumCGPA, d.summary, d.specificRequirements, Open, prof.department)
  }

  /** The application the provider builds for a student (the store assigns id and status). */
  function ApplicationFor(s: StudentProfile, positionId: string, pitch: string): Application {
    Application("", positionId, s.id, s.fullName, s.idNumber, s.email, s.btechBranch, s.dualDegree,
      s.minorDegree, s.whatsappNumber, s.cgpa, pitch, Pending)
  }

  /** A student has at most one application per position. */
  ghost predicate OneApplicationPerPair(apps: seq<Application>) {
    forall i, j :: 0 <= i < j < |apps| ==>
      !(apps[i].studentId == apps[j].studentId && apps[i].positionId == apps[j].positionId)
  }

  /** Appending an application for a pair that has none keeps one application per pair. */
  lemma AppendKeepsOneApplicationPerPair(apps: seq<Application>, a: Application)
    requires OneApplicationPerPair(apps)
    requires forall b :: b in apps ==> !(b.studentId == a.studentId && b.positionId == a.positionId)
    ensures OneApplicationPerPair(apps + [a])
  {
    var all := apps + [a];
    forall i, j | 0 <= i < j < |all|
      ensures !(all[i].studentId == all[j].studentId && all[i].positionId == all[j].positionId)
    {
      if j == |apps| {
        assert all[i] in apps;
      }
    }
  }

  /** The seed applications already keep one application per (student, position). */
  lemma SeedHasOneApplicationPerPair()
    ensures OneApplicationPerPair(MockApplications)
  {
  }

  predicate IsProfessor(u: Option<User>) {
    u.Some? && u.value.ProfessorUser?
  }

  predicate IsStudent(u: Option<User>) {
    u.Some? && u.value.StudentUser?
  }

  class PositionsProvider {
    const store: MockDataService
    var user: Option<User>
    var positions: seq<ResearchPosition>
    var applications: seq<Application>
    var error: Option<PositionsError>

    /** The snapshot is what `refreshPositions` last read from the store. */
    ghost predicate Synced()
      reads this, store
    {
      positions == store.GetPositions() && applications == store.applications
    }

    /** Mounting the provider reads the store once. */
    constructor(store: MockDataService, user: Option<User>)
      ensures this.store == store && this.user == user && error == None
      ensures Synced()
    {
      this.store := store;
      this.user := user;
      positions := store.GetPositions();
      applications := store.applications;
      error := None;
    }

    /** `refreshPositions`: re-read the visible positions and all applications. */
    method Refresh()
      modifies this`positions, this`applications
      ensures Synced()
    {
      positions := store.GetPositions();
      applications := store.applications;
    }

    /** The user changed: the effect that depends on it refreshes the snapshot. */
    method SetUser(u: Option<User>)
      modifies this`user, this`positions, this`applications
      ensures user == u && Synced()
    {
      user := u;
      Refresh();
    }

    function GetPositionById(id: string): (r: Option<ResearchPosition>)
      reads this
      ensures r.Some? ==> r.value in positions && r.value.id == id
      ensures r.Some? ==> IsFirst(positions, (p: ResearchPosition) => p.id == id, r.value)
      ensures r.None? <==> forall p :: p in positions ==> p.id != id
    {
      Find(positions, (p: ResearchPosition) => p.id == id)
    }

    /** The caller is a professor and the first snapshot position with this id is theirs. */
    predicate CanManage(id: string)
      reads this
    {
      IsProfessor(user) &&
      var p := GetPositionById(id);
      p.Some? && p.value.professorId == user.value.professor.id
    }

    /** Professor-only; the draft is stamped with the professor and `open`, and exactly one position is appended. */
    method CreatePosition(d: PositionDraft) returns (r: Result<ResearchPosition, PositionsError>)
      modifies this, store
      ensures user == old(user)
      ensures !IsProfessor(user) ==> r == Failure(OnlyProfessorsCanCreate) && unchanged(this) && unchanged(store)
      ensures IsProfessor(user) ==>
        && r == Success(Stamped(d, user.value.professor).(id := PositionId(|old(store.positions)| + 1)))
        && store.positions == old(store.positions) + [r.value]
        && store.applications == old(store.applications)
        && store.currentUser == old(store.currentUser)
        && error == None && Synced()
    {
      if !IsProfessor(user) {
        return Failure(OnlyProfessorsCanCreate);
      }
      error := None;
      var p := store.CreatePosition(Stamped(d, user.value.professor));
      Refresh();
      r := Success(p);
    }

    /** Only the owning professor may update; a refused call changes nothing,
        an allowed one always re-reads the store. */
    method UpdatePosition(id: string, patch: PositionPatch) returns (r: Result<Option<ResearchPosition>, PositionsError>)
      modifies this, store
      ensures user == old(user)
      ensures !IsProfessor(user) ==> r == Failure(OnlyProfessorsCanUpdate)
      ensures IsProfessor(user) && !old(CanManage(id)) ==> r == Failure(NoPermissionToUpdate)
      ensures r.Failure? ==> unchanged(this) && unchanged(store)
      ensures old(CanManage(id)) ==>
        && r.Success?
        && store.positions == UpdatedPositions(old(store.positions), id, patch)
        && store.applications == old(store.applications)
        && store.currentUser == old(store.currentUser)
        && error == None && Synced()
        && r.value == store.GetPosition(id)
        && (r.value.Some? ==> r.value.value.id == id)
      ensures old(Synced()) && old(CanManage(id)) ==> r.Success? && r.value.Some?
    {
      if !IsProfessor(user) {
        return Failure(OnlyProfessorsCanUpdate);
      }
      if !CanManage(id) {
        return Failure(NoPermissionToUpdate);
      }
      ghost var synced := Synced();
      ghost var target := GetPositionById(id).value;
      if synced {
        SubsequenceMembers(positions, store.positions, target);
      }
      ghost var before := store.positions;
      error := None;
      var p := store.UpdatePosition(id, patch);
      if synced {
        var k :| 0 <= k < |before| && before[k] == target;
        assert store.positions[k].id == id;
        assert p.Some?;
      }
      assert p.Some? ==> p.value.id == id;
      Refresh();
      r := Success(p);
    }

    /** Only the owning professor may delete; the position's applications stay in the store. */
    method DeletePosition(id: string) returns (r: Outcome<PositionsError>)
      modifies this, store
      ensures user == old(user)
      ensures !IsProfessor(user) ==> r == Fail(OnlyProfessorsCanDelete)
      ensures IsProfessor(user) && !old(CanManage(id)) ==> r == Fail(NoPermissionToDelete)
      ensures r.Fail? ==> unchanged(this) && unchanged(store)
      ensures old(CanManage(id)) ==>
        && r.Pass?
        && store.positions == RemovePosition(old(store.positions), id)
        && store.applications == old(store.applications)
        && store.currentUser == old(store.currentUser)
        && error == None && Synced()
    {
      if !IsProfessor(user) {
        return Fail(OnlyProfessorsCanDelete);
      }
      if !CanManage(id) {
        return Fail(NoPermissionToDelete);
      }
      error := None;
      store.DeletePosition(id);
      Refresh();
      r := Pass;
    }

    /** The applications of a position, for its owner only; anybody else gets none. */
    function GetApplicationsForPosition(positionId: string): (r: seq<Application>)
      reads this
      ensures !CanManage(positionId) ==> r == []
      ensures CanManage(positionId) ==> forall a :: a in r <==> a in applications && a.positionId == positionId
      ensures CanManage(positionId) ==> forall a :: a in applications ==>
        multiset(r)[a] == if a.positionId == positionId then multiset(applications)[a] else 0
      ensures IsSubsequence(r, applications)
    {
      if !CanManage(positionId) then []
      else Filter(applications, (a: Application) => a.positionId == positionId)
    }

    /** Whether the logged-in student has an application for this position. */
    function HasApplied(positionId: string): (b: bool)
      reads this
      ensures b <==> (IsStudent(user) &&
        exists a :: a in applications && a.positionId == positionId && a.studentId == user.value.student.id)
    {
      if !IsStudent(user) then false
      else
        var sid := user.value.student.id;
        Any(applications, (a: Application) => a.positionId == positionId && a.studentId == sid)
    }

    /** The checks, in order: role, an earlier application, the position's
        existence, then the CGPA gate (`minimumCGPA > cgpa` rejects, so an
        equal CGPA is accepted). A passing call appends one pending
        application built from the student's profile and the pitch. */
    method CreateApplication(positionId: string, pitch: string) returns (r: Outcome<PositionsError>)
      modifies this, store
      ensures user == old(user)
      ensures !IsStudent(user) ==> r == Fail(OnlyStudentsCanApply) && unchanged(this) && unchanged(store)
      ensures IsStudent(user) && old(HasApplied(positionId)) ==> r == Fail(AlreadyApplied)
      ensures IsStudent(user) && !old(HasApplied(positionId)) && old(GetPositionById(positionId)).None? ==>
        r == Fail(PositionNotFound)
      ensures (IsStudent(user) && !old(HasApplied(positionId)) && old(GetPositionById(positionId)).Some? &&
               old(GetPositionById(positionId)).value.minimumCGPA > user.value.student.cgpa) ==>
        r == Fail(CgpaBelowMinimum(user.value.student.cgpa, old(GetPositionById(positionId)).value.minimumCGPA))
      ensures IsStudent(user) && r.Fail? ==> error == Some(r.error) && unchanged(store)
      ensures r.Fail? ==> positions == old(positions) && applications == old(applications)
      ensures r.Pass? <==>
        IsStudent(user) && !old(HasApplied(positionId)) && old(GetPositionById(positionId)).Some? &&
        old(GetPositionById(positionId)).value.minimumCGPA <= user.value.student.cgpa
      ensures r.Pass? ==>
        && store.applications == old(store.applications) +
             [ApplicationFor(user.value.student, positionId, pitch).(id := ApplicationId(|old(store.applications)|+1))]
        && store.positions == old(store.positions)
        && store.currentUser == old(store.currentUser)
        && error == None && Synced()
      ensures old(applications == store.applications) && old(OneApplicationPerPair(store.applications)) ==>
        OneApplicationPerPair(store.applications)
    {
      if !IsStudent(user) {
        return Fail(OnlyStudentsCanApply);
      }
      error := None;
      if HasApplied(positionId) {
        error := Some(AlreadyApplied);
        return Fail(AlreadyApplied);
      }
      var position := GetPositionById(positionId);
      if position.None? {
        error := Some(PositionNotFound);
        return Fail(PositionNotFound);
      }
      var student := user.value.student;
      if position.value.minimumCGPA > student.cgpa {
        var e := CgpaBelowMinimum(student.cgpa, position.value.minimumCGPA);
        error := Some(e);
        return Fail(e);
      }
      ghost var before := store.applications;
      ghost var added := ApplicationFor(student, positionId, pitch).(id := ApplicationId(|before| + 1), status := Pending);
      if applications == before && OneApplicationPerPair(before) {
        AppendKeepsOneApplicationPerPair(before, added);
      }
      var a := store.CreateApplication(ApplicationFor(student, positionId, pitch));
      Refresh();
      r := Pass;
    }

    /** Professor-only, for an existing application of a position the caller
        owns; any of the three statuses may be set. */
    method UpdateApplicationStatus(applicationId: string, status: ApplicationStatus) returns (r: Outcome<PositionsError>)
      modifies this, store
      ensures user == old(user)
      ensures !IsProfessor(user) ==> r == Fail(OnlyProfessorsCanUpdateStatus)
      ensures IsProfessor(user) && old(Find(applications, (a: Application) => a.id == applicationId)).None? ==>
        r == Fail(ApplicationNotFound)
      ensures var app := old(Find(applications, (a: Application) => a.id == applicationId));
        IsProfessor(user) && app.Some? && !old(CanManage(app.value.positionId)) ==>
          r == Fail(NoPermissionToUpdateApplication)
      ensures r.Fail? ==> unchanged(this) && unchanged(store)
      ensures r.Pass? <==>
        IsProfessor(user) &&
        var app := old(Find(applications, (a: Application) => a.id == applicationId));
        app.Some? && old(CanManage(app.value.positionId))
      ensures r.Pass? ==>
        && store.applications == UpdatedApplications(old(store.applications), applicationId, Some(status))
        && store.positions == old(store.positions)
        && store.currentUser == old(store.currentUser)
        && error == None && Synced()
      ensures old(OneApplicationPerPair(store.applications)) ==> OneApplicationPerPair(store.applications)
    {
      if !IsProfessor(user) {
        return Fail(OnlyProfessorsCanUpdateStatus);
      }
      var application := Find(applications, (a: Application) => a.id == applicationId);
      if application.None? {
        return Fail(ApplicationNotFound);
      }
      if !CanManage(application.value.positionId) {
        return Fail(NoPermissionToUpdateApplication);
      }
      error := None;
      var updated := store.UpdateApplication(applicationId, Some(status));
      Refresh();
      r := Pass;
    }

    /** A professor's own positions in the snapshot; none for anybody else. */
    function MyPositions(): (r: seq<ResearchPosition>)
      reads this
      ensures !IsProfessor(user) ==> r == []
      ensures IsProfessor(user) ==> forall p :: p in r <==> p in positions && p.professorId == user.value.professor.id
      ensures IsProfessor(user) ==> forall p :: p in positions ==>
        multiset(r)[p] == if p.professorId == user.value.professor.id then multiset(positions)[p] else 0
      ensures IsSubsequence(r, positions)
    {
      if !IsProfessor(user) then []
      else
        var id := user.value.professor.id;
        Filter(positions, (p: ResearchPosition) => p.professorId == id)
    }

    /** A student's own applications in the snapshot; none for anybody else. */
    function MyApplications(): (r: seq<Application>)
      reads this
      ensures !IsStudent(user) ==> r == []
      ensures IsStudent(user) ==> forall a :: a in r <==> a in applications && a.studentId == user.value.student.id
      ensures IsStudent(user) ==> forall a :: a in applications ==>
        multiset(r)[a] == if a.studentId == user.value.student.id then multiset(applications)[a] else 0
      ensures IsSubsequence(r, applications)
    {
      if !IsStudent(user) then []
      else
        var id := user.value.student.id;
        Filter(applications, (a: Application) => a.studentId == id)
    }
  }

  /** On a synced provider whose store session is not a professor's, every
      position a student can find by id is open: a closed position cannot be
      applied for. */
  lemma SnapshotPositionsOpenForNonProfessors(p: PositionsProvider, id: string)
    requires p.Synced()
    requires !IsProfessor(p.store.GetCurrentUser())
    requires p.GetPositionById(id).Some?
    ensures p.GetPositionById(id).value.status == Open
  {
  }
}

=== FILE: professor_dashboard.dfy ===
/** The professor dashboard: per-position application counts, and the
    Shortlist and Reject buttons of each application row. */
module ProfessorDashboardPage {
  import opened Seqs
  import opened Types
  import opened PositionsContext

  datatype ApplicationCounts = ApplicationCounts(total: nat, pending: nat, shortlisted: nat, rejected: nat)

  /** How many of the applications have the status. */
  function CountStatus(apps: seq<Application>, status: ApplicationStatus): (n: nat)
    ensures n <= |apps|
  {
    |Filter(apps, (a: Application) => a.status == status)|
  }

  /** The three status counts add up to the total, since every application has exactly one of them. */
  lemma {:induction false} StatusCountsPartition(apps: seq<Application>)
    ensures CountStatus(apps, Pending) + CountStatus(apps, Shortlisted) + CountStatus(apps, Rejected) == |apps|
    decreases |apps|
  {
    if apps != [] {
      StatusCountsPartition(apps[1..]);
    }
  }

  /** The counts of a list of applications. */
  function Counts(apps: seq<Application>): (c: ApplicationCounts)
    ensures c.total == |apps|
    ensures c.pending + c.shortlisted + c.rejected == c.total
    ensures c.pending == CountStatus(apps, Pending) && c.shortlisted == CountStatus(apps, Shortlisted)
    ensures c.rejected == CountStatus(apps, Rejected)
  {
    StatusCountsPartition(apps);
    ApplicationCounts(|apps|, CountStatus(apps, Pending), CountStatus(apps, Shortlisted), CountStatus(apps, Rejected))
  }

  /** `getApplicationCounts`: the counts of the applications the provider shows for the
      position, so all zero for a position the caller does not own. */
  function GetApplicationCounts(positions: PositionsProvider, positionId: string): (c: ApplicationCounts)
    reads positions
    ensures !positions.CanManage(positionId) ==> c == ApplicationCounts(0, 0, 0, 0)
    ensures positions.CanManage(positionId) ==>
      c == Counts(Filter(positions.applications, (a: Application) => a.positionId == positionId))
    ensures c.pending + c.shortlisted + c.rejected == c.total
  {
    Counts(positions.GetApplicationsForPosition(positionId))
  }

  /** Shortlist is disabled for an application already shortlisted. */
  predicate ShortlistDisabled(a: Application) {
    a.status == Shortlisted
  }

  /** Reject is disabled for an application already rejected. */
  predicate RejectDisabled(a: Application) {
    a.status == Rejected
  }

  /** At least one of the two buttons is always enabled, and both are for a pending application. */
  lemma SomeActionEnabled(a: Application)
    ensures !(ShortlistDisabled(a) && RejectDisabled(a))
    ensures a.status == Pending <==> !ShortlistDisabled(a) && !RejectDisabled(a)
  {
  }
}

=== FILE: professor_profile.dfy ===
/** The professor's profile editor: WhatsApp, designation and department
    are checked in that order; research interests are edited as one
    comma-separated line. The id number and e-mail are shown but never sent. */
module ProfessorProfilePage {
  import opened Wrappers
  import opened Types
  import opened Text
  import opened Validation

  /** `designation` is the select's value: nothing yet, or one of the five titles. */
  datatype ProfessorProfileForm = ProfessorProfileForm(
    fullName: string,
    idNumber: string,
    email: string,
    designation: Option<Designation>,
    department: string,
    chamberNumber: string,
    whatsappNumber: string,
    researchInterests: string)

  /** The form as first shown, the interests joined with ", ". */
  function Prefill(p: ProfessorProfile): ProfessorProfileForm {
    ProfessorProfileForm(p.fullName, p.idNumber, p.email, Some(p.designation), p.department, p.chamberNumber,
      p.whatsappNumber, JoinInterests(p.researchInterests))
  }

  function Submit(f: ProfessorProfileForm): (r: Result<ProfilePatch, FormRefusal>)
    ensures !IsWhatsAppNumber(f.whatsappNumber) ==> r == Failure(InvalidWhatsAppNumber)
    ensures IsWhatsAppNumber(f.whatsappNumber) && f.designation.None? ==> r == Failure(MissingDesignation)
    ensures IsWhatsAppNumber(f.whatsappNumber) && f.designation.Some? && !Filled(f.department) ==>
      r == Failure(MissingDepartment)
    ensures r.Success? <==> IsWhatsAppNumber(f.whatsappNumber) && f.designation.Some? && Filled(f.department)
    ensures r.Success? ==>
      && r.value.idNumber.None? && r.value.email.None?
      && r.value.fullName == Some(f.fullName) && r.value.designation == f.designation
      && r.value.department == Some(f.department) && r.value.chamberNumber == Some(f.chamberNumber)
      && r.value.whatsappNumber == Some(f.whatsappNumber)
      && r.value.researchInterests == Some(SplitInterests(f.researchInterests))
  {
    match CheckProfessorFields(f.whatsappNumber, f.designation, f.department)
    case Failure(e) => Failure(e)
    case Success(d) =>
      Success(ProfilePatch(Some(f.fullName), None, None, Some(f.whatsappNumber), None, None, None, None,
        Some(d), Some(f.department), Some(f.chamberNumber), Some(SplitInterests(f.researchInterests))))
  }

  /** An accepted save never changes the id, id number or e-mail, and every
      stored interest is trimmed and free of commas. */
  lemma SaveKeepsIdentity(p: ProfessorProfile, f: ProfessorProfileForm)
    requires Submit(f).Success?
    ensures var q := MergeProfessor(p, Submit(f).value);
      && q.id == p.id && q.idNumber == p.idNumber && q.email == p.email
      && q.researchInterests.Some?
      && forall i :: 0 <= i < |q.researchInterests.value| ==>
           Trimmed(q.researchInterests.value[i]) && ',' !in q.researchInterests.value[i]
  {
  }

  /** Saving the prefilled form unedited gives the profile back, with missing
      interests stored as the empty list, when the interests survive the
      text box: no item has a comma or surrounding blanks, and the list is
      not a single empty item. */
  lemma SaveUnchangedProfile(p: ProfessorProfile)
    requires IsWhatsAppNumber(p.whatsappNumber) && Filled(p.department)
    requires p.researchInterests.Some? ==>
      p.researchInterests.value != [""] &&
      forall i :: 0 <= i < |p.researchInterests.value| ==>
        ',' !in p.researchInterests.value[i] && Trimmed(p.researchInterests.value[i])
    ensures Submit(Prefill(p)).Success?
    ensures MergeProfessor(p, Submit(Prefill(p)).value) ==
      p.(researchInterests := Some(p.researchInterests.GetOr([])))
  {
    if p.researchInterests.Some? {
      SplitJoinInterests(p.researchInterests.value);
    }
  }
}

=== FILE: professor_profile_setup.dfy ===
/** First-time professor setup: designation, department, chamber, WhatsApp
    number and research interests, under the same checks as the editor. */
module ProfessorProfileSetupPage {
  import opened Wrappers
  import opened Types
  import opened Text
  import opened Validation

  datatype ProfessorSetupForm = ProfessorSetupForm(
    designation: Option<Designation>,
    department: string,
    chamberNumber: string,
    whatsappNumber: string,
    researchInterests: string)

  /** The form as first shown, the interests joined with ", ". */
  function Prefill(p: ProfessorProfile): ProfessorSetupForm {
    ProfessorSetupForm(Some(p.designation), p.department, p.chamberNumber, p.whatsappNumber,
      JoinInterests(p.researchInterests))
  }

  /** WhatsApp, designation, department; the patch holds only the five setup fields. */
  function Submit(f: ProfessorSetupForm): (r: Result<ProfilePatch, FormRefusal>)
    ensures !IsWhatsAppNumber(f.whatsappNumber) ==> r == Failure(InvalidWhatsAppNumber)
    ensures IsWhatsAppNumber(f.whatsappNumber) && f.designation.None? ==> r == Failure(MissingDesignation)
    ensures IsWhatsAppNumber(f.whatsappNumber) && f.designation.Some? && !Filled(f.department) ==>
      r == Failure(MissingDepartment)
    ensures r.Success? <==> IsWhatsAppNumber(f.whatsappNumber) && f.designation.Some? && Filled(f.department)
    ensures r.Success? ==>
      && r.value.designation == f.designation && r.value.department == Some(f.department)
      && r.value.chamberNumber == Some(f.chamberNumber) && r.value.whatsappNumber == Some(f.whatsappNumber)
      && r.value.researchInterests == Some(SplitInterests(f.researchInterests))
  {
    match CheckProfessorFields(f.whatsappNumber, f.designation, f.department)
    case Failure(e) => Failure(e)
    case Success(d) =>
      Success(ProfilePatch(None, None, None, Some(f.whatsappNumber), None, None, None, None,
        Some(d), Some(f.department), Some(f.chamberNumber), Some(SplitInterests(f.researchInterests))))
  }

  /** An accepted setup changes nothing but the five setup fields. */
  lemma SetupTouchesOnlySetupFields(p: ProfessorProfile, f: ProfessorSetupForm)
    requires Submit(f).Success?
    ensures MergeProfessor(p, Submit(f).value) ==
      p.(designation := f.designation.value, department := f.department, chamberNumber := f.chamberNumber,
         whatsappNumber := f.whatsappNumber, researchInterests := Some(SplitInterests(f.researchInterests)))
  {
  }

  /** Saving the prefilled setup form unedited gives the profile back, with
      missing interests stored as the empty list, under the same condition
      on the interests as the editor. */
  lemma SaveUnchangedSetup(p: ProfessorProfile)
    requires IsWhatsAppNumber(p.whatsappNumber) && Filled(p.department)
    requires p.researchInterests.Some? ==>
      p.researchInterests.value != [""] &&
      forall i :: 0 <= i < |p.researchInterests.value| ==>
        ',' !in p.researchInterests.value[i] && Trimmed(p.researchInterests.value[i])
    ensures Submit(Prefill(p)).Success?
    ensures MergeProfessor(p, Submit(Prefill(p)).value) ==
      p.(researchInterests := Some(p.researchInterests.GetOr([])))
  {
    if p.researchInterests.Some? {
      SplitJoinInterests(p.researchInterests.value);
    }
  }
}

=== FILE: register.dfy ===
/** The registration page: the campus suffix is checked, then the password
    confirmation; the data sent holds the name, id number, e-mail, the
    chosen role and an empty WhatsApp number. */
module RegisterPage {
  import opened Wrappers
  import opened Types
  import opened Validation
  import MockData

  datatype RegisterForm = RegisterForm(
    email: string,
    password: string,
    confirmPassword: string,
    fullName: string,
    idNumber: string,
    role: Role)

  /** The page opens with empty fields and the student role selected. */
  const InitialForm: RegisterForm := RegisterForm("", "", "", "", "", Student)

  function Submit(f: RegisterForm): (r: Result<MockData.RegisterData, FormRefusal>)
    ensures !IsCampusEmail(f.email) ==> r == Failure(InvalidEmail)
    ensures IsCampusEmail(f.email) && f.password != f.confirmPassword ==> r == Failure(PasswordMismatch)
    ensures r.Success? <==> IsCampusEmail(f.email) && f.password == f.confirmPassword
    ensures r.Success? ==>
      && r.value.email == Some(f.email) && r.value.role == Some(f.role)
      && r.value.fullName == Some(f.fullName) && r.value.idNumber == Some(f.idNumber)
      && r.value.whatsappNumber == Some("")
  {
    if !IsCampusEmail(f.email) then Failure(InvalidEmail)
    else if f.password != f.confirmPassword then Failure(PasswordMismatch)
    else Success(MockData.RegisterData(Some(f.fullName), Some(f.idNumber), Some(f.email), Some(""), Some(f.role),
      None, None, None, None))
  }

  /** Data the page accepts always passes the store's own checks: the new
      user has the chosen role, the given id, the form's name, id number and
      e-mail, and no WhatsApp number yet. */
  lemma AcceptedFormRegisters(f: RegisterForm, id: string)
    requires Submit(f).Success?
    ensures var u := MockData.NewUser(Submit(f).value, id);
      && u.Success? && u.value.Role() == f.role && u.value.Id() == id
      && u.value.FullName() == f.fullName
      && (u.value.StudentUser? ==>
            u.value.student.email == f.email && u.value.student.idNumber == f.idNumber &&
            u.value.student.whatsappNumber == "")
      && (u.value.ProfessorUser? ==>
            u.value.professor.email == f.email && u.value.professor.idNumber == f.idNumber &&
            u.value.professor.whatsappNumber == "")
  {
  }

  /** Where a registration leads: the setup page for the role. */
  function RedirectTarget(role: Role): (path: string)
    ensures role.Student? <==> path == "/student-profile-setup"
    ensures role.Professor? <==> path == "/professor-profile-setup"
  {
    var student, professor := "/student-profile-setup", "/professor-profile-setup";
    assert student != professor by { assert student[1] != professor[1]; }
    if role == Student then student else professor
  }
}

=== FILE: seqs.dfy ===
/** The array operations the source relies on (`find`, `findIndex`,
    `filter`, `some`, `Array.from(new Set(...))`), as functions on
    sequences with the guarantees JavaScript gives them. */
module Seqs {
  import opened Wrappers

  /** `a` is an order-preserving subsequence of `b`. */
  ghost predicate IsSubsequence<T>(a: seq<T>, b: seq<T>)
    decreases |b|
  {
    a == [] ||
    (b != [] && ((a[0] == b[0] && IsSubsequence(a[1..], b[1..])) || IsSubsequence(a, b[1..])))
  }

  lemma {:induction false} SubsequenceReflexive<T>(a: seq<T>)
    ensures IsSubsequence(a, a)
    decreases |a|
  {
    if a != [] {
      SubsequenceReflexive(a[1..]);
    }
  }

  /** A subsequence of a subsequence is a subsequence. */
  lemma {:induction false} SubsequenceTransitive<T>(a: seq<T>, b: seq<T>, c: seq<T>)
    requires IsSubsequence(a, b) && IsSubsequence(b, c)
    ensures IsSubsequence(a, c)
    decreases |c|
  {
    if a != [] {
      if b[0] == c[0] && IsSubsequence(b[1..], c[1..]) {
        if a[0] == b[0] && IsSubsequence(a[1..], b[1..]) {
          SubsequenceTransitive(a[1..], b[1..], c[1..]);
        } else {
          SubsequenceTransitive(a, b[1..], c[1..]);
        }
      } else {
        SubsequenceTransitive(a, b, c[1..]);
      }
    }
  }

  /** Every element of a subsequence is an element of the whole. */
  lemma {:induction false} SubsequenceMembers<T>(a: seq<T>, b: seq<T>, x: T)
    requires IsSubsequence(a, b) && x in a
    ensures x in b
    decreases |b|
  {
    if a[0] == b[0] && IsSubsequence(a[1..], b[1..]) {
      if x != a[0] {
        assert x in a[1..];
        SubsequenceMembers(a[1..], b[1..], x);
      }
    } else {
      SubsequenceMembers(a, b[1..], x);
    }
  }

  /** `findIndex`: the index of the first element satisfying `p`. */
  function FindIndex<T>(xs: seq<T>, p: T -> bool): (r: Option<nat>)
    ensures r.Some? ==> r.value < |xs| && p(xs[r.value]) && forall j :: 0 <= j < r.value ==> !p(xs[j])
    ensures r.None? <==> forall j :: 0 <= j < |xs| ==> !p(xs[j])
    decreases |xs|
  {
    if xs == [] then None
    else if p(xs[0]) then Some(0)
    else match FindIndex(xs[1..], p)
      case None => None
      case Some(i) => Some(i + 1)
  }

  /** `x` is the first element of `xs` satisfying `p`. */
  ghost predicate IsFirst<T>(xs: seq<T>, p: T -> bool, x: T) {
    exists k :: 0 <= k < |xs| && xs[k] == x && p(x) && forall j :: 0 <= j < k ==> !p(xs[j])
  }

  /** `find`: the first element satisfying `p`, or `undefined`. */
  function Find<T>(xs: seq<T>, p: T -> bool): (r: Option<T>)
    ensures r.Some? ==> r.value in xs && p(r.value) && IsFirst(xs, p, r.value)
    ensures r.None? <==> forall x :: x in xs ==> !p(x)
  {
    match FindIndex(xs, p)
    case None => None
    case Some(i) => Some(xs[i])
  }

  /** `some`: whether any element satisfies `p`. */
  function Any<T>(xs: seq<T>, p: T -> bool): (b: bool)
    ensures b <==> exists x :: x in xs && p(x)
    decreases |xs|
  {
    if xs == [] then false
    else p(xs[0]) || Any(xs[1..], p)
  }

  /** `filter`: the elements satisfying `p`, in their original order. */
  function Filter<T>(xs: seq<T>, p: T -> bool): (r: seq<T>)
    ensures |r| <= |xs|
    ensures forall x :: x in r ==> x in xs && p(x)
    ensures forall x :: x in xs && p(x) ==> x in r
    ensures forall x :: x in xs ==> multiset(r)[x] == if p(x) then multiset(xs)[x] else 0
    ensures IsSubsequence(r, xs)
    decreases |xs|
  {
    if xs == [] then []
    else
      assert xs == [xs[0]] + xs[1..];
      if p(xs[0]) then [xs[0]] + Filter(xs[1..], p)
      else Filter(xs[1..], p)
  }

  /** Filtering with a predicate that every element satisfies changes nothing. */
  lemma {:induction false} FilterKeepsAll<T>(xs: seq<T>, p: T -> bool)
    requires forall x :: x in xs ==> p(x)
    ensures Filter(xs, p) == xs
    decreases |xs|
  {
    if xs != [] {
      assert xs[0] in xs;
      forall x | x in xs[1..] ensures p(x) { assert x in xs; }
      FilterKeepsAll(xs[1..], p);
      assert [xs[0]] + xs[1..] == xs;
    }
  }

  /** Two predicates that agree on every element filter alike. */
  lemma {:induction false} FilterCongruent<T>(xs: seq<T>, p: T -> bool, q: T -> bool)
    requires forall x :: x in xs ==> p(x) == q(x)
    ensures Filter(xs, p) == Filter(xs, q)
    decreases |xs|
  {
    if xs != [] {
      assert xs[0] in xs;
      forall x | x in xs[1..] ensures p(x) == q(x) { assert x in xs; }
      FilterCongruent(xs[1..], p, q);
    }
  }

  /** `x` occurs in `xs` before the first occurrence of `y`. */
  ghost predicate OccursBefore<T>(xs: seq<T>, x: T, y: T) {
    exists k :: 0 <= k < |xs| && xs[k] == x && y !in xs[..k]
  }

  /** `Array.from(new Set(xs))`: the distinct elements in order of first occurrence. */
  function Distinct<T(==)>(xs: seq<T>): (r: seq<T>)
    ensures forall x :: x in r ==> x in xs
    ensures forall x :: x in xs ==> x in r
    ensures forall i, j :: 0 <= i < j < |r| ==> r[i] != r[j]
    ensures forall i, j :: 0 <= i < j < |r| ==> OccursBefore(xs, r[i], r[j])
    decreases |xs|
  {
    if xs == [] then []
    else
      var front := xs[..|xs| - 1];
      var rest := Distinct(front);
      var last := xs[|xs| - 1];
      assert xs == front + [last];
      if last in rest then
        DistinctOrderExtends(front, last, rest);
        rest
      else
        var r := rest + [last];
        DistinctOrderExtends(front, last, rest);
        forall i | 0 <= i < |rest| ensures OccursBefore(xs, r[i], last) {
          assert rest[i] in rest;
          var k :| 0 <= k < |front| && front[k] == rest[i];
          assert xs[k] == r[i] && xs[..k] == front[..k];
          assert last !in front;
        }
        r
  }

  /** An order of first occurrences in a prefix still holds once an element is appended. */
  lemma DistinctOrderExtends<T>(front: seq<T>, last: T, rest: seq<T>)
    requires forall i, j :: 0 <= i < j < |rest| ==> OccursBefore(front, rest[i], rest[j])
    ensures forall i, j :: 0 <= i < j < |rest| ==> OccursBefore(front + [last], rest[i], rest[j])
  {
    var xs := front + [last];
    forall i, j | 0 <= i < j < |rest| ensures OccursBefore(xs, rest[i], rest[j]) {
      var k :| 0 <= k < |front| && front[k] == rest[i] && rest[j] !in front[..k];
      assert xs[k] == rest[i] && xs[..k] == front[..k];
    }
  }
}

=== FILE: status_badge.dfy ===
/** The badge class both dashboards give an application status. */
module StatusBadge {
  import opened Types

  /** The three statuses have their own classes; any other text has none. */
  function StatusColor(status: string): (c: string)
    ensures c != "" <==> status == "pending" || status == "shortlisted" || status == "rejected"
  {
    if status == "pending" then "bg-bits-warning text-black"
    else if status == "shortlisted" then "bg-bits-success"
    else if status == "rejected" then "bg-bits-error"
    else ""
  }

  /** Every status has a class, and different statuses have different classes. */
  lemma StatusColorsDistinct(a: ApplicationStatus, b: ApplicationStatus)
    ensures StatusColor(StatusName(a)) != ""
    ensures StatusColor(StatusName(a)) == StatusColor(StatusName(b)) ==> a == b
  {
  }
}

=== FILE: student_dashboard.dfy ===
/** The student dashboard: the position search, the CGPA eligibility shown
    on each card, the apply dialog (resume-link check, submit, reset), the
    status of the student's own applications and the applications tab. */
module StudentDashboardPage {
  import opened Wrappers
  import opened Seqs
  import opened Text
  import opened Types
  import opened Validation
  import opened PositionFilters
  import opened PositionsContext
  import MockData

  /** The search looks at the research area, the professor's name and the course code. */
  predicate MatchesSearch(p: ResearchPosition, query: string) {
    MatchesQuery(p.researchArea, query) || MatchesQuery(p.professorName, query) ||
    MatchesQuery(p.courseCode, query)
  }

  /** The positions listed, in their original order. */
  function FilteredPositions(positions: seq<ResearchPosition>, departmentFilter: string, query: string)
    : (r: seq<ResearchPosition>)
    ensures IsSubsequence(r, positions)
    ensures forall p :: p in r <==>
      p in positions && MatchesDepartment(p, departmentFilter) && MatchesSearch(p, query)
    ensures forall p :: p in positions ==>
      multiset(r)[p] == if MatchesDepartment(p, departmentFilter) && MatchesSearch(p, query)
                        then multiset(positions)[p] else 0
  {
    Filter(positions, (p: ResearchPosition) => MatchesDepartment(p, departmentFilter) && MatchesSearch(p, query))
  }

  /** With the wildcard department and an empty query every position is listed, in order. */
  lemma NoFiltersListEverything(positions: seq<ResearchPosition>)
    ensures FilteredPositions(positions, AllDepartments, "") == positions
  {
    forall p | p in positions
      ensures MatchesDepartment(p, AllDepartments) && MatchesSearch(p, "")
    {
      EmptyQueryMatches(p.researchArea);
    }
    FilterKeepsAll(positions, (p: ResearchPosition) => MatchesDepartment(p, AllDepartments) && MatchesSearch(p, ""));
  }

  /** The listing does not depend on the case of the query. */
  lemma SearchIgnoresCase(positions: seq<ResearchPosition>, departmentFilter: string, query: string)
    ensures FilteredPositions(positions, departmentFilter, Lower(query)) ==
            FilteredPositions(positions, departmentFilter, query)
  {
    forall p: ResearchPosition
      ensures MatchesSearch(p, Lower(query)) == MatchesSearch(p, query)
    {
      QueryCaseInsensitive(p.researchArea, query);
      QueryCaseInsensitive(p.professorName, query);
      QueryCaseInsensitive(p.courseCode, query);
    }
    FilterCongruent(positions,
      (p: ResearchPosition) => MatchesDepartment(p, departmentFilter) && MatchesSearch(p, Lower(query)),
      (p: ResearchPosition) => MatchesDepartment(p, departmentFilter) && MatchesSearch(p, query));
  }

  predicate IsCgpaEligible(s: StudentProfile, p: ResearchPosition) {
    s.cgpa >= p.minimumCGPA
  }

  /** The card's Apply button is disabled for a position the student is not eligible for. */
  predicate ApplyDisabled(s: StudentProfile, p: ResearchPosition) {
    !IsCgpaEligible(s, p)
  }

  /** The dialog's Submit button: a blank pitch, a blank link or a submit in progress disables it. */
  predicate SubmitDisabled(pitch: string, resumeLink: string, isSubmitting: bool) {
    Trim(pitch) == "" || Trim(resumeLink) == "" || isSubmitting
  }

  /** A Drive link is never blank, so with a pitch and no submit running the button is enabled. */
  lemma DriveLinkEnablesSubmit(pitch: string, resumeLink: string)
    requires IsDriveLink(resumeLink) && Trim(pitch) != ""
    ensures !SubmitDisabled(pitch, resumeLink, false)
  {
    DriveLinkIsNotBlank(resumeLink);
  }

  /** The status of the first of the student's applications for the position, if any. */
  function GetApplicationStatus(myApplications: seq<Application>, positionId: string): (r: Option<ApplicationStatus>)
    ensures r.None? <==> forall a :: a in myApplications ==> a.positionId != positionId
    ensures r.Some? ==>
      exists i ::
        && 0 <= i < |myApplications|
        && myApplications[i].positionId == positionId
        && myApplications[i].status == r.value
        && forall j :: 0 <= j < i ==> myApplications[j].positionId != positionId
  {
    match FindIndex(myApplications, (a: Application) => a.positionId == positionId)
    case None => None
    case Some(i) => Some(myApplications[i].status)
  }

  /** A status is shown for a position exactly when the provider says the student has applied. */
  lemma StatusShownIffApplied(positions: PositionsProvider, positionId: string)
    ensures GetApplicationStatus(positions.MyApplications(), positionId).Some? <==> positions.HasApplied(positionId)
  {
    var mine := positions.MyApplications();
    if positions.HasApplied(positionId) {
      var a :| a in positions.applications && a.positionId == positionId && a.studentId == positions.user.value.student.id;
      assert a in mine;
    }
  }

  /** A row of the applications tab: an application with the position it is for. */
  datatype AppliedRow = AppliedRow(application: Application, position: ResearchPosition)

  /** Some position carries this id. */
  ghost predicate HasPosition(positions: seq<ResearchPosition>, id: string) {
    exists p :: p in positions && p.id == id
  }

  /** The applications of the rows, in row order. */
  function RowApplications(rows: seq<AppliedRow>): (apps: seq<Application>)
    ensures |apps| == |rows|
    ensures forall i :: 0 <= i < |rows| ==> apps[i] == rows[i].application
    decreases |rows|
  {
    if rows == [] then [] else [rows[0].application] + RowApplications(rows[1..])
  }

  /** The applications tab: each application with the first position of its
      id, in the order of the applications; an application whose position
      is gone is skipped. */
  function AppliedRows(myApplications: seq<Application>, positions: seq<ResearchPosition>): (rows: seq<AppliedRow>)
    ensures RowApplications(rows) ==
      Filter(myApplications, (a: Application) => HasPosition(positions, a.positionId))
    ensures forall i :: 0 <= i < |rows| ==>
      && rows[i].position in positions
      && rows[i].position.id == rows[i].application.positionId
      && IsFirst(positions, (p: ResearchPosition) => p.id == rows[i].application.positionId, rows[i].position)
    decreases |myApplications|
  {
    if myApplications == [] then []
    else
      var a := myApplications[0];
      var rest := AppliedRows(myApplications[1..], positions);
      match Find(positions, (p: ResearchPosition) => p.id == a.positionId)
      case None => rest
      case Some(p) =>
        var rows := [AppliedRow(a, p)] + rest;
        assert rows[1..] == rest;
        rows
  }

  /** After its position is deleted an application no longer appears in the
      tab, although the store still holds it. */
  lemma DeletedPositionHidesApplications(myApplications: seq<Application>, positions: seq<ResearchPosition>, id: string)
    ensures forall r :: r in AppliedRows(myApplications, MockData.RemovePosition(positions, id)) ==>
      r.application.positionId != id
  {
  }

  datatype ApplyResult = NothingSelected | InvalidResumeLink | Submitted | SubmissionFailed

  /** The apply dialog's state. */
  class StudentDashboard {
    var selected: Option<ResearchPosition>
    var pitch: string
    var resumeLink: string
    var isSubmitting: bool

    constructor()
      ensures selected == None && pitch == "" && resumeLink == "" && !isSubmitting
    {
      selected := None;
      pitch := "";
      resumeLink := "";
      isSubmitting := false;
    }

    /** `handleApply`: nothing without a selected position; a link that is
        not a Drive link is refused before the provider is called; otherwise
        the provider decides, and a success clears the dialog. The
        provider accepts exactly when the student has not applied, the
        position is in the snapshot and the card showed the student eligible. */
    method HandleApply(positions: PositionsProvider) returns (r: ApplyResult)
      modifies this, positions, positions.store
      ensures old(selected).None? ==>
        r == NothingSelected && unchanged(this) && unchanged(positions) && unchanged(positions.store)
      ensures old(selected).Some? && !IsDriveLink(old(resumeLink)) ==>
        r == InvalidResumeLink && unchanged(this) && unchanged(positions) && unchanged(positions.store)
      ensures old(selected).Some? && IsDriveLink(old(resumeLink)) ==>
        && !isSubmitting
        && (r == Submitted || r == SubmissionFailed)
        && (r == Submitted <==>
              IsStudent(positions.user) && !old(positions.HasApplied(selected.value.id)) &&
              old(positions.GetPositionById(selected.value.id)).Some? &&
              IsCgpaEligible(positions.user.value.student, old(positions.GetPositionById(selected.value.id)).value))
        && (r == Submitted ==>
              && selected == None && pitch == "" && resumeLink == ""
              && positions.store.applications == old(positions.store.applications) +
                   [ApplicationFor(positions.user.value.student, old(selected.value.id), old(pitch))
                      .(id := MockData.ApplicationId(|old(positions.store.applications)| + 1))]
              && positions.store.positions == old(positions.store.positions))
        && (r == SubmissionFailed ==>
              && selected == old(selected) && pitch == old(pitch) && resumeLink == old(resumeLink)
              && unchanged(positions.store))
    {
      if selected.None? {
        return NothingSelected;
      }
      if !IsDriveLink(resumeLink) {
        return InvalidResumeLink;
      }
      isSubmitting := true;
      ghost var accepted :=
        && IsStudent(positions.user) && !positions.HasApplied(selected.value.id)
        && positions.GetPositionById(selected.value.id).Some?
        && IsCgpaEligible(positions.user.value.student, positions.GetPositionById(selected.value.id).value);
      var outcome := positions.CreateApplication(selected.value.id, pitch);
      assert outcome.Pass? <==> accepted;
      if outcome.Pass? {
        selected := None;
        pitch := "";
        resumeLink := "";
        r := Submitted;
      } else {
        r := SubmissionFailed;
      }
      isSubmitting := false;
    }
  }
}

=== FILE: student_profile.dfy ===
/** The student's profile editor: the form is filled from the profile, and
    submitting checks the WhatsApp number and then the CGPA before sending
    every form field, with the CGPA as a number. */
module StudentProfilePage {
  import opened Wrappers
  import opened Types
  import opened Validation

  datatype StudentProfileForm = StudentProfileForm(
    fullName: string,
    idNumber: string,
    email: string,
    btechBranch: string,
    dualDegree: string,
    minorDegree: string,
    whatsappNumber: string,
    cgpa: string)

  /** The form as first shown: missing optional fields become "", the CGPA is rendered by `showNumber`. */
  function Prefill(s: StudentProfile, showNumber: real -> string): StudentProfileForm {
    StudentProfileForm(s.fullName, s.idNumber, s.email, s.btechBranch.GetOr(""), s.dualDegree.GetOr(""),
      s.minorDegree.GetOr(""), s.whatsappNumber, showNumber(s.cgpa))
  }

  /** Submitting: the shared WhatsApp-then-CGPA checks, then a patch with all
      eight form fields, empty optional fields included as "". */
  function Submit(f: StudentProfileForm, parseFloat: string -> Option<real>): (r: Result<ProfilePatch, FormRefusal>)
    ensures !IsWhatsAppNumber(f.whatsappNumber) ==> r == Failure(InvalidWhatsAppNumber)
    ensures IsWhatsAppNumber(f.whatsappNumber) && ParseCgpa(f.cgpa, parseFloat).None? ==> r == Failure(InvalidCgpa)
    ensures r.Success? <==> IsWhatsAppNumber(f.whatsappNumber) && ParseCgpa(f.cgpa, parseFloat).Some?
    ensures r.Success? ==>
      && r.value.cgpa == ParseCgpa(f.cgpa, parseFloat)
      && r.value.fullName == Some(f.fullName) && r.value.idNumber == Some(f.idNumber) && r.value.email == Some(f.email)
      && r.value.btechBranch == Some(f.btechBranch) && r.value.dualDegree == Some(f.dualDegree)
      && r.value.minorDegree == Some(f.minorDegree) && r.value.whatsappNumber == Some(f.whatsappNumber)
      && r.value.designation.None? && r.value.department.None? && r.value.chamberNumber.None?
      && r.value.researchInterests.None?
  {
    match CheckStudentFields(f.whatsappNumber, f.cgpa, parseFloat)
    case Failure(e) => Failure(e)
    case Success(cgpa) =>
      Success(ProfilePatch(Some(f.fullName), Some(f.idNumber), Some(f.email), Some(f.whatsappNumber),
        Some(f.btechBranch), Some(f.dualDegree), Some(f.minorDegree), Some(cgpa), None, None, None, None))
  }

  /** Saving the prefilled form unedited is accepted when the stored number is
      valid and the CGPA text reads back, and it changes the profile only by
      turning a missing branch, dual degree or minor into "". */
  lemma SaveUnchangedProfile(s: StudentProfile, showNumber: real -> string, parseFloat: string -> Option<real>)
    requires IsWhatsAppNumber(s.whatsappNumber)
    requires parseFloat(showNumber(s.cgpa)) == Some(s.cgpa) && 0.0 <= s.cgpa <= 10.0
    ensures Submit(Prefill(s, showNumber), parseFloat).Success?
    ensures MergeStudent(s, Submit(Prefill(s, showNumber), parseFloat).value) ==
      s.(btechBranch := Some(s.btechBranch.GetOr("")),
         dualDegree := Some(s.dualDegree.GetOr("")),
         minorDegree := Some(s.minorDegree.GetOr("")))
  {
  }

  /** The id number and e-mail inputs are disabled, so they keep their
      prefilled values and an accepted save leaves them as stored. */
  lemma DisabledFieldsKept(s: StudentProfile, f: StudentProfileForm, showNumber: real -> string,
                           parseFloat: string -> Option<real>)
    requires f.idNumber == Prefill(s, showNumber).idNumber && f.email == Prefill(s, showNumber).email
    requires Submit(f, parseFloat).Success?
    ensures var t := MergeStudent(s, Submit(f, parseFloat).value);
      t.id == s.id && t.idNumber == s.idNumber && t.email == s.email
  {
  }
}

=== FILE: student_profile_setup.dfy ===
/** First-time student setup: branch, dual degree, minor, WhatsApp number
    and CGPA, under the same checks as the profile editor. */
module StudentProfileSetupPage {
  import opened Wrappers
  import opened Types
  import opened Validation

  datatype StudentSetupForm = StudentSetupForm(
    btechBranch: string,
    dualDegree: string,
    minorDegree: string,
    whatsappNumber: string,
    cgpa: string)

  /** The form as first shown: missing fields become "". */
  function Prefill(s: StudentProfile, showNumber: real -> string): StudentSetupForm {
    StudentSetupForm(s.btechBranch.GetOr(""), s.dualDegree.GetOr(""), s.minorDegree.GetOr(""),
      s.whatsappNumber, showNumber(s.cgpa))
  }

  /** WhatsApp, then CGPA; the patch carries the five setup fields and nothing else. */
  function Submit(f: StudentSetupForm, parseFloat: string -> Option<real>): (r: Result<ProfilePatch, FormRefusal>)
    ensures !IsWhatsAppNumber(f.whatsappNumber) ==> r == Failure(InvalidWhatsAppNumber)
    ensures IsWhatsAppNumber(f.whatsappNumber) && ParseCgpa(f.cgpa, parseFloat).None? ==> r == Failure(InvalidCgpa)
    ensures r.Success? <==> IsWhatsAppNumber(f.whatsappNumber) && ParseCgpa(f.cgpa, parseFloat).Some?
    ensures r.Success? ==>
      && r.value.cgpa == ParseCgpa(f.cgpa, parseFloat)
      && r.value.btechBranch == Some(f.btechBranch) && r.value.dualDegree == Some(f.dualDegree)
      && r.value.minorDegree == Some(f.minorDegree) && r.value.whatsappNumber == Some(f.whatsappNumber)
  {
    match CheckStudentFields(f.whatsappNumber, f.cgpa, parseFloat)
    case Failure(e) => Failure(e)
    case Success(cgpa) =>
      Success(ProfilePatch(None, None, None, Some(f.whatsappNumber), Some(f.btechBranch), Some(f.dualDegree),
        Some(f.minorDegree), Some(cgpa), None, None, None, None))
  }

  /** An accepted setup never changes the name, the id number or the e-mail. */
  lemma SetupKeepsIdentity(s: StudentProfile, f: StudentSetupForm, parseFloat: string -> Option<real>)
    requires Submit(f, parseFloat).Success?
    ensures var t := MergeStudent(s, Submit(f, parseFloat).value);
      t.id == s.id && t.fullName == s.fullName && t.idNumber == s.idNumber && t.email == s.email
  {
  }

  /** Saving the prefilled setup form unedited only turns missing optional fields into "". */
  lemma SaveUnchangedSetup(s: StudentProfile, showNumber: real -> string, parseFloat: string -> Option<real>)
    requires IsWhatsAppNumber(s.whatsappNumber)
    requires parseFloat(showNumber(s.cgpa)) == Some(s.cgpa) && 0.0 <= s.cgpa <= 10.0
    ensures Submit(Prefill(s, showNumber), parseFloat).Success?
    ensures MergeStudent(s, Submit(Prefill(s, showNumber), parseFloat).value) ==
      s.(btechBranch := Some(s.btechBranch.GetOr("")),
         dualDegree := Some(s.dualDegree.GetOr("")),
         minorDegree := Some(s.minorDegree.GetOr("")))
  {
  }
}

=== FILE: text.dfy ===
/** The string operations the pages use: `startsWith`, `endsWith`,
    `includes`, `toLowerCase`, `trim`, `split(",")`, `join(", ")`, the
    decimal rendering of a non-negative integer in a template literal, and
    the `\d` character class. */
module Text {

  predicate StartsWith(s: string, prefix: string) {
    |prefix| <= |s| && s[..|prefix|] == prefix
  }

  predicate EndsWith(s: string, suffix: string) {
    |suffix| <= |s| && s[|s| - |suffix|..] == suffix
  }

  /** `s.endsWith(suffix)` holds exactly when `s` is some string followed by `suffix`. */
  lemma EndsWithIff(s: string, suffix: string)
    ensures EndsWith(s, suffix) <==> exists front :: s == front + suffix
  {
    if EndsWith(s, suffix) {
      var front := s[..|s| - |suffix|];
      assert s == front + suffix;
    }
    if exists front :: s == front + suffix {
      var front :| s == front + suffix;
      assert s[|s| - |suffix|..] == suffix;
    }
  }

  /** `sub` occurs in `s` at position `i`. */
  predicate OccursAt(s: string, sub: string, i: int) {
    0 <= i <= |s| - |sub| && s[i..i + |sub|] == sub
  }

  /** `s.includes(sub)`, scanning from the left. */
  predicate Includes(s: string, sub: string)
    decreases |s|
  {
    StartsWith(s, sub) || (s != [] && Includes(s[1..], sub))
  }

  /** `includes` holds exactly when `sub` occurs somewhere in `s`. */
  lemma {:induction false} IncludesIff(s: string, sub: string)
    ensures Includes(s, sub) <==> exists i :: OccursAt(s, sub, i)
    decreases |s|
  {
    if s != [] {
      IncludesIff(s[1..], sub);
      if StartsWith(s, sub) {
        assert OccursAt(s, sub, 0);
      }
      if exists i :: OccursAt(s[1..], sub, i) {
        var i :| OccursAt(s[1..], sub, i);
        assert s[i + 1..i + 1 + |sub|] == s[1..][i..i + |sub|];
        assert OccursAt(s, sub, i + 1);
      }
      if exists i :: OccursAt(s, sub, i) {
        var i :| OccursAt(s, sub, i);
        if i == 0 {
          assert StartsWith(s, sub);
        } else {
          assert s[1..][i - 1..i - 1 + |sub|] == s[i..i + |sub|];
          assert OccursAt(s[1..], sub, i - 1);
        }
      }
    } else {
      if exists i :: OccursAt(s, sub, i) {
        var i :| OccursAt(s, sub, i);
        assert StartsWith(s, sub);
      }
      if Includes(s, sub) {
        assert OccursAt(s, sub, 0);
      }
    }
  }

  /** Every string includes the empty string. */
  lemma IncludesEmpty(s: string)
    ensures Includes(s, "")
  {
    assert s[..0] == "";
  }

  /** ASCII case folding, the model of `toLowerCase`. */
  function LowerChar(c: char): char {
    if 'A' <= c <= 'Z' then (c as int + 32) as char else c
  }

  function Lower(s: string): (r: string)
    ensures |r| == |s|
    ensures forall i :: 0 <= i < |s| ==> r[i] == LowerChar(s[i])
    decreases |s|
  {
    if s == [] then [] else [LowerChar(s[0])] + Lower(s[1..])
  }

  /** Folding twice is folding once. */
  lemma LowerIdempotent(s: string)
    ensures Lower(Lower(s)) == Lower(s)
  {
  }

  /** The characters `String.prototype.trim` removes: white space and line terminators. */
  predicate IsSpace(c: char) {
    c == ' ' || c == '\t' || c == '\n' || c == '\r' || c == '\U{000B}' || c == '\U{000C}' ||
    c == '\U{00A0}' || c == '\U{1680}' || ('\U{2000}' <= c <= '\U{200A}') ||
    c == '\U{2028}' || c == '\U{2029}' || c == '\U{202F}' || c == '\U{205F}' ||
    c == '\U{3000}' || c == '\U{FEFF}'
  }

  /** No white space at either end. */
  predicate Trimmed(s: string) {
    s == [] || (!IsSpace(s[0]) && !IsSpace(s[|s| - 1]))
  }

  /** Drops the leading white space, and nothing else. */
  function TrimStart(s: string): (r: string)
    ensures r == [] || !IsSpace(r[0])
    ensures |r| <= |s| && r == s[|s| - |r|..]
    ensures forall i :: 0 <= i < |s| - |r| ==> IsSpace(s[i])
    decreases |s|
  {
    if s != [] && IsSpace(s[0]) then TrimStart(s[1..]) else s
  }

  /** Drops the trailing white space, and nothing else. */
  function TrimEnd(s: string): (r: string)
    ensures r == [] || !IsSpace(r[|r| - 1])
    ensures |r| <= |s| && r == s[..|r|]
    ensures forall i :: |r| <= i < |s| ==> IsSpace(s[i])
    decreases |s|
  {
    if s != [] && IsSpace(s[|s| - 1]) then TrimEnd(s[..|s| - 1]) else s
  }

  /** `r` is the part of `s` starting at `i`, and everything cut off before
      and after it is white space. */
  ghost predicate CutFrom(s: string, i: nat, r: string) {
    && i + |r| <= |s|
    && r == s[i..i + |r|]
    && (forall k :: 0 <= k < i ==> IsSpace(s[k]))
    && (forall k :: i + |r| <= k < |s| ==> IsSpace(s[k]))
  }

  /** `trim`: the middle of the string, with no white space at either end
      and only white space cut off before and after it. */
  function Trim(s: string): (r: string)
    ensures Trimmed(r)
    ensures |r| <= |s|
    ensures exists i: nat :: CutFrom(s, i, r)
  {
    var t := TrimStart(s);
    var r := TrimEnd(t);
    assert r != [] ==> r[0] == t[0];
    TrimStartEndCut(s);
    r
  }

  /** Trimming the start and then the end cuts off only white space around the middle. */
  lemma TrimStartEndCut(s: string)
    ensures CutFrom(s, |s| - |TrimStart(s)|, TrimEnd(TrimStart(s)))
  {
    var t := TrimStart(s);
    CutOfSuffix(s, |s| - |t|, t, TrimEnd(t));
  }

  /** Cutting white space off the end of a suffix that follows white space. */
  lemma CutOfSuffix(s: string, i: nat, t: string, r: string)
    requires i <= |s| && t == s[i..] && |r| <= |t| && r == t[..|r|]
    requires forall k :: 0 <= k < i ==> IsSpace(s[k])
    requires forall k :: |r| <= k < |t| ==> IsSpace(t[k])
    ensures CutFrom(s, i, r)
  {
    assert r == s[i..i + |r|];
    forall k | i + |r| <= k < |s| ensures IsSpace(s[k]) {
      assert s[k] == t[k - i];
    }
  }

  /** Trimming a trimmed string, alone or after one leading blank, gives it back. */
  lemma TrimOfTrimmed(s: string)
    requires Trimmed(s)
    ensures Trim(s) == s
    ensures Trim(" " + s) == s
  {
    assert TrimStart(s) == s;
    assert TrimEnd(s) == s;
    var t := " " + s;
    assert t != [] && IsSpace(t[0]);
    assert t[1..] == s;
    assert TrimStart(t) == TrimStart(s);
  }

  /** `s.split(sep)` for a one-character separator: the pieces between separators. */
  function Split(s: string, sep: char): (r: seq<string>)
    ensures |r| >= 1
    decreases |s|
  {
    if s == [] then [""]
    else
      var rest := Split(s[1..], sep);
      if s[0] == sep then [""] + rest
      else [[s[0]] + rest[0]] + rest[1..]
  }

  /** `xs.join(sep)`. */
  function Join(xs: seq<string>, sep: string): string
    decreases |xs|
  {
    if |xs| == 0 then ""
    else if |xs| == 1 then xs[0]
    else xs[0] + sep + Join(xs[1..], sep)
  }

  /** No piece of a split contains the separator. */
  lemma {:induction false} SplitPiecesHaveNoSeparator(s: string, sep: char)
    ensures forall k :: 0 <= k < |Split(s, sep)| ==> sep !in Split(s, sep)[k]
    decreases |s|
  {
    if s != [] {
      SplitPiecesHaveNoSeparator(s[1..], sep);
    }
  }

  /** Joining the pieces of a split with the separator restores the string. */
  lemma {:induction false} JoinSplit(s: string, sep: char)
    ensures Join(Split(s, sep), [sep]) == s
    decreases |s|
  {
    if s != [] {
      var rest := Split(s[1..], sep);
      JoinSplit(s[1..], sep);
      if s[0] == sep {
        assert Split(s, sep) == [""] + rest;
        assert ([""] + rest)[1..] == rest;
      } else {
        var r := [[s[0]] + rest[0]] + rest[1..];
        assert Split(s, sep) == r;
        if |rest| == 1 {
          assert Join(r, [sep]) == [s[0]] + rest[0];
        } else {
          assert r[1..] == rest[1..];
          assert Join(rest, [sep]) == rest[0] + [sep] + Join(rest[1..], [sep]);
        }
        assert [s[0]] + s[1..] == s;
      }
    }
  }

  /** A separator-free prefix becomes the first piece, and the split carries on after it. */
  lemma {:induction false} SplitAfterPiece(a: string, b: string, sep: char)
    requires sep !in a
    ensures Split(a + [sep] + b, sep) == [a] + Split(b, sep)
    decreases |a|
  {
    if a == [] {
      assert a + [sep] + b == [sep] + b;
      assert ([sep] + b)[1..] == b;
    } else {
      assert (a + [sep] + b)[1..] == a[1..] + [sep] + b;
      SplitAfterPiece(a[1..], b, sep);
      assert [a[0]] + a[1..] == a;
    }
  }

  /** A string without the separator splits into itself alone. */
  lemma {:induction false} SplitNoSeparator(s: string, sep: char)
    requires sep !in s
    ensures Split(s, sep) == [s]
    decreases |s|
  {
    if s != [] {
      SplitNoSeparator(s[1..], sep);
      assert [s[0]] + s[1..] == s;
    }
  }

  function DigitChar(d: nat): char
    requires d < 10
  {
    ('0' as int + d) as char
  }

  /** The decimal digits of `n`, as a template literal renders a non-negative integer. */
  function NatToString(n: nat): (r: string)
    ensures |r| >= 1
    ensures forall i :: 0 <= i < |r| ==> '0' <= r[i] <= '9'
    decreases n
  {
    if n < 10 then [DigitChar(n)] else NatToString(n / 10) + [DigitChar(n % 10)]
  }

  /** Distinct numbers render as distinct strings. */
  lemma {:induction false} NatToStringInjective(m: nat, n: nat)
    requires NatToString(m) == NatToString(n)
    ensures m == n
    decreases m
  {
    var a, b := NatToString(m), NatToString(n);
    if m < 10 && n < 10 {
    } else if m < 10 || n < 10 {
    } else {
      assert a[..|a| - 1] == NatToString(m / 10);
      assert b[..|b| - 1] == NatToString(n / 10);
      NatToStringInjective(m / 10, n / 10);
      assert m % 10 == n % 10 by { assert a[|a| - 1] == b[|b| - 1]; }
    }
  }

  /** The `\d` character class of a JavaScript regular expression. */
  predicate IsDigit(c: char) {
    '0' <= c <= '9'
  }

  predicate AllDigits(s: string)
    decreases |s|
  {
    s == [] || (IsDigit(s[0]) && AllDigits(s[1..]))
  }

  lemma {:induction false} AllDigitsIff(s: string)
    ensures AllDigits(s) <==> forall i :: 0 <= i < |s| ==> IsDigit(s[i])
    decreases |s|
  {
    if s != [] {
      AllDigitsIff(s[1..]);
      assert forall i :: 1 <= i < |s| ==> s[i] == s[1..][i - 1];
    }
  }
}

=== FILE: types.dfy ===
/** The records of the marketplace: users (students and professors),
    research positions and applications, with their enumerated fields.
    `createdAt` timestamps are not modelled. */
module Types {
  import opened Wrappers

  datatype Role = Student | Professor

  /** The five titles a professor may hold. */
  datatype Designation =
    | FullProfessor
    | SeniorProfessor
    | AssociateProfessor
    | AssistantProfessor
    | JuniorProfessor

  function DesignationName(d: Designation): (name: string)
    ensures name in DesignationNames
  {
    match d
    case FullProfessor => "Professor"
    case SeniorProfessor => "Senior Professor"
    case AssociateProfessor => "Associate Professor"
    case AssistantProfessor => "Assistant Professor"
    case JuniorProfessor => "Junior Professor"
  }

  const DesignationNames: seq<string> :=
    ["Professor", "Senior Professor", "Associate Professor", "Assistant Professor", "Junior Professor"]

  /** The title strings are the five listed ones, and each names exactly one designation. */
  lemma DesignationNameInjective(a: Designation, b: Designation)
    requires DesignationName(a) == DesignationName(b)
    ensures a == b
  {
  }

  datatype PositionStatus = Open | Closed

  datatype ApplicationStatus = Pending | Shortlisted | Rejected

  function StatusName(s: ApplicationStatus): string {
    match s
    case Pending => "pending"
    case Shortlisted => "shortlisted"
    case Rejected => "rejected"
  }

  /** A student always has a numeric CGPA; branch, dual degree and minor are optional. */
  datatype StudentProfile = StudentProfile(
    id: string,
    fullName: string,
    idNumber: string,
    email: string,
    whatsappNumber: string,
    btechBranch: Option<string>,
    dualDegree: Option<string>,
    minorDegree: Option<string>,
    cgpa: real)

  /** `researchInterests` is declared as a string but used as a list of strings. */
  datatype ProfessorProfile = ProfessorProfile(
    id: string,
    fullName: string,
    idNumber: string,
    email: string,
    whatsappNumber: string,
    designation: Designation,
    department: string,
    chamberNumber: string,
    researchInterests: Option<seq<string>>)

  /** A user is exactly one of a student or a professor; `Role()` tells which. */
  datatype User = StudentUser(student: StudentProfile) | ProfessorUser(professor: ProfessorProfile) {
    function Role(): (r: Role)
      ensures r == Student <==> this.StudentUser?
      ensures r == Professor <==> this.ProfessorUser?
    {
      if StudentUser? then Student else Professor
    }

    function Id(): string {
      if StudentUser? then student.id else professor.id
    }

    function FullName(): string {
      if StudentUser? then student.fullName else professor.fullName
    }
  }

  /** `credits` is `None` when it was parsed from text that is not a number (NaN). */
  datatype ResearchPosition = ResearchPosition(
    id: string,
    professorId: string,
    professorName: string,
    researchArea: string,
    courseCode: string,
    credits: Option<int>,
    semester: string,
    prerequisites: Option<string>,
    minimumCGPA: real,
    summary: string,
    specificRequirements: Option<string>,
    status: PositionStatus,
    department: string)

  datatype Application = Application(
    id: string,
    positionId: string,
    studentId: string,
    fullName: string,
    idNumber: string,
    email: string,
    btechBranch: Option<string>,
    dualDegree: Option<string>,
    minorDegree: Option<string>,
    whatsappNumber: string,
    cgpa: real,
    pitch: string,
    status: ApplicationStatus)

  /** A partial position: the fields present are written over the record's. */
  datatype PositionPatch = PositionPatch(
    researchArea: Option<string>,
    courseCode: Option<string>,
    credits: Option<Option<int>>,
    semester: Option<string>,
    prerequisites: Option<string>,
    minimumCGPA: Option<real>,
    summary: Option<string>,
    specificRequirements: Option<string>,
    status: Option<PositionStatus>)

  /** A partial user: the profile pages send student or professor fields. */
  datatype ProfilePatch = ProfilePatch(
    fullName: Option<string>,
    idNumber: Option<string>,
    email: Option<string>,
    whatsappNumber: Option<string>,
    btechBranch: Option<string>,
    dualDegree: Option<string>,
    minorDegree: Option<string>,
    cgpa: Option<real>,
    designation: Option<Designation>,
    department: Option<string>,
    chamberNumber: Option<string>,
    researchInterests: Option<seq<string>>)

  /** `{ ...p, ...patch }` on a position. */
  function MergePosition(p: ResearchPosition, patch: PositionPatch): (q: ResearchPosition)
    ensures q.id == p.id && q.professorId == p.professorId && q.professorName == p.professorName
    ensures q.department == p.department
    ensures patch == PositionPatch(None, None, None, None, None, None, None, None, None) ==> q == p
  {
    p.(researchArea := patch.researchArea.GetOr(p.researchArea),
       courseCode := patch.courseCode.GetOr(p.courseCode),
       credits := patch.credits.GetOr(p.credits),
       semester := patch.semester.GetOr(p.semester),
       prerequisites := SomeOr(patch.prerequisites, p.prerequisites),
       minimumCGPA := patch.minimumCGPA.GetOr(p.minimumCGPA),
       summary := patch.summary.GetOr(p.summary),
       specificRequirements := SomeOr(patch.specificRequirements, p.specificRequirements),
       status := patch.status.GetOr(p.status))
  }

  function SomeOr(patched: Option<string>, current: Option<string>): Option<string> {
    if patched.Some? then patched else current
  }

  /** `{ ...student, ...patch }`: the student fields present in the patch are written over. */
  function MergeStudent(s: StudentProfile, patch: ProfilePatch): (t: StudentProfile)
    ensures t.id == s.id
  {
    s.(fullName := patch.fullName.GetOr(s.fullName),
       idNumber := patch.idNumber.GetOr(s.idNumber),
       email := patch.email.GetOr(s.email),
       whatsappNumber := patch.whatsappNumber.GetOr(s.whatsappNumber),
       btechBranch := SomeOr(patch.btechBranch, s.btechBranch),
       dualDegree := SomeOr(patch.dualDegree, s.dualDegree),
       minorDegree := SomeOr(patch.minorDegree, s.minorDegree),
       cgpa := patch.cgpa.GetOr(s.cgpa))
  }

  /** `{ ...professor, ...patch }`: the professor fields present in the patch are written over. */
  function MergeProfessor(p: ProfessorProfile, patch: ProfilePatch): (q: ProfessorProfile)
    ensures q.id == p.id
  {
    p.(fullName := patch.fullName.GetOr(p.fullName),
       idNumber := patch.idNumber.GetOr(p.idNumber),
       email := patch.email.GetOr(p.email),
       whatsappNumber := patch.whatsappNumber.GetOr(p.whatsappNumber),
       designation := patch.designation.GetOr(p.designation),
       department := patch.department.GetOr(p.department),
       chamberNumber := patch.chamberNumber.GetOr(p.chamberNumber),
       researchInterests := if patch.researchInterests.Some? then patch.researchInterests else p.researchInterests)
  }
}

=== FILE: validation.dfy ===
/** The form rules the pages share: the WhatsApp pattern `^\d{10}$`, the
    CGPA range [0, 10] after `parseFloat`, required fields (a JavaScript
    string is truthy when non-empty), the campus e-mail suffix, the Google
    Drive resume prefix, and the comma-separated research interests. */
module Validation {
  import opened Wrappers
  import opened Text
  import opened Types
  import MockData

  /** Why a page refuses to submit its form. */
  datatype FormRefusal =
    | MissingInformation
    | InvalidCgpa
    | InvalidWhatsAppNumber
    | MissingDesignation
    | MissingDepartment
    | InvalidEmail
    | PasswordMismatch
    | MissingPositionId

  /** A required text field is filled when it is not the empty string. */
  predicate Filled(s: string) {
    s != ""
  }

  /** `/^\d{10}$/.test(s)`. */
  predicate IsWhatsAppNumber(s: string) {
    |s| == 10 && AllDigits(s)
  }

  /** A WhatsApp number is exactly ten characters, each an ASCII digit. */
  lemma WhatsAppNumberIff(s: string)
    ensures IsWhatsAppNumber(s) <==> |s| == 10 && forall i :: 0 <= i < |s| ==> '0' <= s[i] <= '9'
  {
    AllDigitsIff(s);
  }

  /** `parseFloat` followed by the page's range check: `None` for text that
      is not a number or lies outside [0, 10]; both bounds are accepted. */
  function ParseCgpa(text: string, parseFloat: string -> Option<real>): (r: Option<real>)
    ensures r.Some? <==> parseFloat(text).Some? && 0.0 <= parseFloat(text).value <= 10.0
    ensures r.Some? ==> r.value == parseFloat(text).value
  {
    match parseFloat(text)
    case None => None
    case Some(v) => if v < 0.0 || v > 10.0 then None else Some(v)
  }

  /** `email.endsWith('@goa.bits-pilani.ac.in')`, the same suffix the store checks. */
  predicate IsCampusEmail(email: string) {
    EndsWith(email, MockData.CampusDomain)
  }

  const DriveLinkPrefix: string := "https://drive.google.com/"

  predicate IsDriveLink(link: string) {
    StartsWith(link, DriveLinkPrefix)
  }

  /** A link that passes the Drive check is never blank after trimming. */
  lemma DriveLinkIsNotBlank(link: string)
    requires IsDriveLink(link)
    ensures Trim(link) != ""
  {
    assert link[0] == 'h' by { assert link[..|DriveLinkPrefix|] == DriveLinkPrefix; }
    var t := TrimStart(link);
    assert t == link by {
      assert !IsSpace(link[0]);
    }
    TrimEndKeepsNonBlankStart(t);
  }

  /** Right-trimming a string that starts with a non-space character leaves something. */
  lemma {:induction false} TrimEndKeepsNonBlankStart(s: string)
    requires s != [] && !IsSpace(s[0])
    ensures TrimEnd(s) != []
    decreases |s|
  {
    if IsSpace(s[|s| - 1]) {
      TrimEndKeepsNonBlankStart(s[..|s| - 1]);
    }
  }

  /** The two student-profile checks, WhatsApp first, then CGPA; the parsed CGPA on success. */
  function CheckStudentFields(whatsappNumber: string, cgpaText: string, parseFloat: string -> Option<real>)
    : (r: Result<real, FormRefusal>)
    ensures !IsWhatsAppNumber(whatsappNumber) ==> r == Failure(InvalidWhatsAppNumber)
    ensures IsWhatsAppNumber(whatsappNumber) && ParseCgpa(cgpaText, parseFloat).None? ==> r == Failure(InvalidCgpa)
    ensures r.Success? <==> IsWhatsAppNumber(whatsappNumber) && ParseCgpa(cgpaText, parseFloat).Some?
    ensures r.Success? ==> 0.0 <= r.value <= 10.0 && parseFloat(cgpaText) == Some(r.value)
  {
    if !IsWhatsAppNumber(whatsappNumber) then Failure(InvalidWhatsAppNumber)
    else match ParseCgpa(cgpaText, parseFloat)
      case None => Failure(InvalidCgpa)
      case Some(v) => Success(v)
  }

  /** The three professor-profile checks, in order: WhatsApp, designation, department.
      The designation select holds nothing or one of the five titles. */
  function CheckProfessorFields(whatsappNumber: string, designation: Option<Designation>, department: string)
    : (r: Result<Designation, FormRefusal>)
    ensures !IsWhatsAppNumber(whatsappNumber) ==> r == Failure(InvalidWhatsAppNumber)
    ensures IsWhatsAppNumber(whatsappNumber) && designation.None? ==> r == Failure(MissingDesignation)
    ensures IsWhatsAppNumber(whatsappNumber) && designation.Some? && !Filled(department) ==>
      r == Failure(MissingDepartment)
    ensures r.Success? <==> IsWhatsAppNumber(whatsappNumber) && designation.Some? && Filled(department)
    ensures r.Success? ==> designation == Some(r.value)
  {
    if !IsWhatsAppNumber(whatsappNumber) then Failure(InvalidWhatsAppNumber)
    else if designation.None? then Failure(MissingDesignation)
    else if !Filled(department) then Failure(MissingDepartment)
    else Success(designation.value)
  }

  /** `items.map(item => item.trim())`. */
  function TrimAll(items: seq<string>): (r: seq<string>)
    ensures |r| == |items|
    ensures forall i :: 0 <= i < |r| ==> r[i] == Trim(items[i])
    decreases |items|
  {
    if items == [] then [] else [Trim(items[0])] + TrimAll(items[1..])
  }

  /** The research-interest text box becomes a list: [] for the empty string,
      otherwise the comma-separated pieces, each trimmed. */
  function SplitInterests(text: string): (r: seq<string>)
    ensures text == "" ==> r == []
    ensures text != "" ==> |r| == |Split(text, ',')| && |r| >= 1
    ensures text != "" ==> forall i :: 0 <= i < |r| ==> r[i] == Trim(Split(text, ',')[i])
    ensures forall i :: 0 <= i < |r| ==> Trimmed(r[i]) && ',' !in r[i]
  {
    if text == "" then []
    else
      var pieces := Split(text, ',');
      SplitPiecesHaveNoSeparator(text, ',');
      var r := TrimAll(pieces);
      forall i | 0 <= i < |r| ensures ',' !in r[i] {
        var k: nat :| CutFrom(pieces[i], k, r[i]);
        assert r[i] == pieces[i][k..k + |r[i]|];
      }
      r
  }

  /** The list shown in the text box: the interests joined with ", ", or "" when there are none. */
  function JoinInterests(interests: Option<seq<string>>): string {
    if interests.Some? then Join(interests.value, ", ") else ""
  }

  /** Showing a list and reading the text back returns the list, provided no
      item holds a comma or surrounding white space and the list is not the
      single empty item. */
  lemma SplitJoinInterests(xs: seq<string>)
    requires forall i :: 0 <= i < |xs| ==> ',' !in xs[i] && Trimmed(xs[i])
    requires xs != [""]
    ensures SplitInterests(JoinInterests(Some(xs))) == xs
  {
    if xs != [] {
      var text := Join(xs, ", ");
      assert text != "" by {
        if |xs| == 1 {
          assert xs[0] != "";
        } else {
          assert |text| >= |", "|;
        }
      }
      TrimSplitJoin(xs, "");
      assert "" + text == text;
    }
  }

  /** A single empty interest is shown as "" and read back as no interests at all. */
  lemma EmptyInterestIsDropped()
    ensures JoinInterests(Some([""])) == ""
    ensures SplitInterests(JoinInterests(Some([""]))) == []
  {
  }

  /** The first piece, `lead + x`, has no comma and trims to `x`. */
  lemma LeadingPiece(lead: string, x: string)
    requires lead == "" || lead == " "
    requires ',' !in x && Trimmed(x)
    ensures ',' !in lead + x
    ensures Trim(lead + x) == x
  {
    if lead == "" {
      assert lead + x == x;
      TrimOfTrimmed(x);
    } else {
      assert (lead + x)[1..] == x;
      assert ',' !in lead + x by {
        forall k | 0 <= k < |lead + x| ensures (lead + x)[k] != ',' {
          if k > 0 {
            assert (lead + x)[k] == x[k - 1];
          }
        }
      }
      assert lead + x == " " + x;
      TrimOfTrimmed(x);
    }
  }

  lemma JoinUnfold(xs: seq<string>, lead: string)
    requires |xs| >= 2
    ensures lead + Join(xs, ", ") == (lead + xs[0]) + [','] + (" " + Join(xs[1..], ", "))
  {
  }

  lemma TrimAllCons(h: string, rest: seq<string>)
    ensures TrimAll([h] + rest) == [Trim(h)] + TrimAll(rest)
  {
    assert ([h] + rest)[1..] == rest;
  }

  /** The pieces of `lead + Join(xs, ", ")` trim back to `xs` when `lead` is "" or " ". */
  lemma {:induction false} TrimSplitJoin(xs: seq<string>, lead: string)
    requires |xs| >= 1
    requires forall i :: 0 <= i < |xs| ==> ',' !in xs[i] && Trimmed(xs[i])
    requires lead == "" || lead == " "
    ensures TrimAll(Split(lead + Join(xs, ", "), ',')) == xs
    decreases |xs|
  {
    var head := lead + xs[0];
    LeadingPiece(lead, xs[0]);
    if |xs| == 1 {
      assert lead + Join(xs, ", ") == head;
      SplitNoSeparator(head, ',');
      TrimAllCons(head, []);
    } else {
      var tail := " " + Join(xs[1..], ", ");
      JoinUnfold(xs, lead);
      SplitAfterPiece(head, tail, ',');
      TrimSplitJoin(xs[1..], " ");
      TrimAllCons(head, Split(tail, ','));
      assert [xs[0]] + xs[1..] == xs;
    }
  }
}

=== FILE: wrappers.dfy ===
/** Option, Result and Outcome: the error paths that the TypeScript code
    expresses with `undefined`, `null`, `{ success: false, error }` and
    `throw`. */
module Wrappers {

  datatype Option<+T> = None | Some(value: T) {
    function GetOr(default: T): T {
      match this
      case Some(v) => v
      case None => default
    }
  }

  datatype Result<+R, +E> = Success(value: R) | Failure(error: E)

  datatype Outcome<+E> = Pass | Fail(error: E)
}
